=== FILE: README.md ===
# LoginService in Dafny

A model of the account and token core of the LoginService application, with
proofs about it. The application is a Quarkus service that stores users
(username, telephone number, Argon2 password hash, pending reset code),
registers them, checks passwords, runs a reset-code flow, and issues and
checks HS256 JSON Web Tokens that a request filter requires on protected
resources.

Modules, one per concern of the code base:

- `Wrappers`: `Option` and `Result`.
- `JavaText`: the Java library behaviour the core relies on. This covers
  32- and 64-bit wrap-around and string concatenation with `null`. It also
  covers `String.split` on a literal `.` (trailing empty strings dropped),
  `startsWith` and `Long.toString`. It also has an `IndexOf` helper, which
  `Users.ValidUsername` uses to locate the `@`.
- `Base64Url`: the base64url alphabet of section 5 of RFC 4648. Encoding is
  unpadded, as `Base64.getUrlEncoder().withoutPadding()` does. Decoding
  follows `Base64.getUrlDecoder()`, which accepts optional padding.
- `Users`: the `User` record. The two `@Pattern` constraints are stated
  twice, once as the regular expression reads and once as a direct check,
  and lemmas prove the two agree.
- `UserStore`: the table of users as a map from id to record. It also holds
  the repository's `findByUsername`.
- `LoginService`: the account operations. Each one returns the store after
  the call together with the return value or the exception.
- `LoginProperties`: properties of call sequences.
- `Jwt`: the two token services as one definition. A `Signer` parameter
  chooses the key (the injected pepper, or the `SECRET_KEY` environment
  value) and the minute arithmetic (64-bit or 32-bit).
- `JwtProperties`: properties of issuing and checking tokens.
- `JwtFilter`: the bearer-token request filter.

Parameters stand in for everything the core receives from outside:

- Argon2 is a record of `hash` and `verify` functions. The one property
  assumed of it, that a hash verifies exactly its own input, is the
  predicate `Sound`. It is a lemma hypothesis, not an axiom.
- The platform charset, HMAC-SHA256 and the JSON reader form a `Platform`
  record.
- The current time, the random salt, the random reset code and newly
  generated ids are arguments.

The model keeps these behaviours of the code:

- The reset code is never cleared after use, so it can be redeemed again
  (`LoginProperties.ResetCodeFlow`).
- `updateUser` does not keep usernames unique
  (`LoginProperties.UpdateUserCanDuplicateUsername`).
- `encryptPassword` hashes the password twice followed by the pepper, while
  `checkPassword` verifies it once followed by the pepper. So the password
  just registered does not log in (`LoginProperties.RegisterThenLoginFails`),
  and the password typed twice does
  (`LoginProperties.RegisterThenLoginWithDoubledPassword`).
- `User.java` declares no `resetCode` field, although `LoginService` reads
  and writes one. The record carries it as an optional string.

## Model

| member | source | states |
|---|---|---|
| JavaText.Wrap32 | src/main/java/at/htlleonding/JWTService.java:22 | the `int` product keeps its value when it fits in 32 bits and otherwise equals it modulo 2^32, as Java `int` multiplication does |
| JavaText.Wrap64 | src/main/java/at/htlleonding/jwt/JWTService.java:26 | `long` arithmetic is exact within 64 bits and congruent modulo 2^64 otherwise |
| JavaText.JavaStr | src/main/java/at/htlleonding/LoginService.java:48 | concatenating a `null` string appends the text "null"; any other string is appended as it is |
| JavaText.SplitOn | src/main/java/at/htlleonding/jwt/JWTService.java:44 | the raw pieces of a split: at least one, none holding the separator, and joined with the separator they give back the input |
| JavaText.DropTrailingEmpty | src/main/java/at/htlleonding/jwt/JWTService.java:44 | `split` keeps a prefix of the raw pieces, drops only empty strings, and leaves no empty string last |
| JavaText.JavaSplit | src/main/java/at/htlleonding/jwt/JWTService.java:44 | no part of a split holds the separator |
| JavaText.SplitOnCount | src/main/java/at/htlleonding/jwt/JWTService.java:44 | a string with n separators has n + 1 raw pieces |
| JavaText.SplitOnPrefix | src/main/java/at/htlleonding/jwt/JWTService.java:44 | a separator-free prefix followed by the separator becomes the first piece |
| JavaText.SplitOnNoDelimiter | src/main/java/at/htlleonding/jwt/JWTService.java:44 | a string without the separator is its own only piece |
| JavaText.JavaSplitThree | src/main/java/at/htlleonding/jwt/JWTService.java:44-52 | `a.b.c` with separator-free parts and a non-empty last part splits into exactly `[a, b, c]` |
| JavaText.DropTrailingEmptyAppend | src/main/java/at/htlleonding/jwt/JWTService.java:44 | one more trailing empty piece changes nothing after trailing empties are dropped |
| JavaText.SplitOnAppend | src/main/java/at/htlleonding/jwt/JWTService.java:44 | a trailing separator adds exactly one empty raw piece |
| JavaText.JavaSplitTrailingDelimiter | src/main/java/at/htlleonding/jwt/JWTService.java:44 | a trailing `.` does not change the split of a non-empty string; "." splits into no parts while "" splits into one empty part |
| JavaText.JavaSplitFewDelimiters | src/main/java/at/htlleonding/jwt/JWTService.java:44-48 | with fewer than two separators the split has fewer than three parts |
| JavaText.LongToString | src/main/java/at/htlleonding/jwt/JWTService.java:31 | the text of a `long` is decimal digits without leading zeros that denote its magnitude, preceded by `-` exactly when it is negative |
| JavaText.DigitsValue | src/main/java/at/htlleonding/jwt/JWTService.java:31 | the written digits read back as the number, so the `exp` text carries the value |
| Base64Url.DecodeChar | src/main/java/at/htlleonding/jwt/JWTService.java:63 | a character the decoder accepts stands for a 6-bit value whose encoding is that character |
| Base64Url.Encode | src/main/java/at/htlleonding/jwt/JWTService.java:80 | every encoded character is in the URL alphabet |
| Base64Url.EncodeLength | src/main/java/at/htlleonding/jwt/JWTService.java:80 | unpadded encoding of n bytes has ceil(4n/3) characters, so a 32-byte tag gives 43 |
| Base64Url.EncodeHasNoSeparator | src/main/java/at/htlleonding/jwt/JWTService.java:22-37 | encoded segments hold neither `.` nor `=`, so the token's dots are exactly the two separators |
| Base64Url.DecodeEncode | src/main/java/at/htlleonding/jwt/JWTService.java:63 | the URL decoder gives back every byte string the unpadded encoder produced |
| Users.ValidUsernameSplits | src/main/java/at/htlleonding/User.java:24 | a username the direct check accepts matches the username regular expression |
| Users.SplitIsValidUsername | src/main/java/at/htlleonding/User.java:24 | each way of matching the username regular expression satisfies the direct check |
| Users.UsernamePatternEquivalence | src/main/java/at/htlleonding/User.java:24 | the direct check accepts exactly what the username pattern matches |
| Users.UsernamePatternShape | src/main/java/at/htlleonding/User.java:24 | a matching username ends in a line feed; before it there is exactly one `@`, not first, no whitespace, and an inner `.` after the `@` |
| Users.TelephonePatternEquivalence | src/main/java/at/htlleonding/User.java:28 | the direct check (optional `+`, one or more ASCII digits, final line feed) accepts exactly what the telephone pattern matches |
| Users.PatternsEndInLineFeed | src/main/java/at/htlleonding/User.java:23-29 | because of the literal `\n` after `$`, every username and telephone number that passes validation is non-empty and ends in a line feed |
| UserStore.Least | src/main/java/at/htlleonding/LoginPanacheRepository.java:20 | the first result is the least of the matching ids |
| UserStore.FindByUsername | src/main/java/at/htlleonding/LoginPanacheRepository.java:19-21 | absent exactly when the name is `null` or no record has it; otherwise a record with that name, the first of them |
| UserStore.FindByUsernameUnique | src/main/java/at/htlleonding/LoginPanacheRepository.java:19-21 | with unique usernames, the lookup finds the one record holding the name |
| UserStore.FindByUsernameFrame | src/main/java/at/htlleonding/LoginPanacheRepository.java:19-21 | a change that keeps ids and usernames keeps every lookup result |
| LoginService.GetUserById | src/main/java/at/htlleonding/LoginService.java:31-34 | the record filed under the id, and `null` exactly when there is none |
| LoginService.CheckArguments | src/main/java/at/htlleonding/LoginService.java:99-111 | passes exactly when password, username and telephone number are all non-null and non-empty; otherwise the message names the first failing field in the order password, username, telephone |
| LoginService.BeanValidPassesChecks | src/main/java/at/htlleonding/LoginService.java:99-111 | a record that satisfies the `@NotNull` and `@Pattern` constraints and has a non-empty password passes `checkArguments` |
| LoginService.EncryptedVerifiesDoubled | src/main/java/at/htlleonding/LoginService.java:47-51 | with a sound Argon2, a stored hash verifies exactly the password twice followed by the pepper |
| LoginService.AddUser | src/main/java/at/htlleonding/LoginService.java:36-45 | argument errors come first, then a taken username is refused; success happens exactly when neither applies, adds only the new record with the hashed password, and keeps well-formedness and unique usernames; a failure leaves the store unchanged |
| LoginService.CheckPassword | src/main/java/at/htlleonding/LoginService.java:53-63 | a message-less `IllegalArgumentException` exactly when the username is unknown or `null`; otherwise, for the record `findByUsername` returns, the verdict of its stored hash against the password followed by the pepper, or a `NullPointerException` when that record has no hash; the store is never changed |
| LoginService.ResetPassword | src/main/java/at/htlleonding/LoginService.java:65-75 | fails with "User not found!" exactly when the lookup fails; otherwise returns the code and sets it on the found record only |
| LoginService.ResetPasswordWithCode | src/main/java/at/htlleonding/LoginService.java:77-91 | unknown user, then no pending code, each with its exception; a different code gives false with no change; the pending code gives true and replaces only the found record's password, leaving the code in place |
| LoginService.UpdateUser | src/main/java/at/htlleonding/LoginService.java:93-97 | argument errors as in `checkArguments`; otherwise the record is stored as given, replacing the record with its id or inserted under a fresh id |
| LoginService.DeleteUser | src/main/java/at/htlleonding/LoginService.java:113-120 | fails with "User not found!" exactly when the id is unknown; otherwise removes that record and nothing else |
| LoginService.DeleteUserByName | src/main/java/at/htlleonding/LoginService.java:122-128 | a `null` or empty name is rejected; an unknown name fails with the persistence library's own exception from `remove(null)`, distinct from the service's; otherwise exactly the found record is removed |
| LoginProperties.AddedUserIsFound | src/main/java/at/htlleonding/LoginService.java:36-45 | after registration, a lookup by the username finds the new record |
| LoginProperties.RegisterThenLoginFails | src/main/java/at/htlleonding/LoginService.java:47-62 | logging in with the password just registered answers false |
| LoginProperties.RegisterThenLoginWithDoubledPassword | src/main/java/at/htlleonding/LoginService.java:47-62 | logging in with the registered password typed twice answers true |
| LoginProperties.AddThenDeleteRestores | src/main/java/at/htlleonding/LoginService.java:113-120 | deleting a just-registered user by its id gives back exactly the store before registration |
| LoginProperties.AddThenDeleteByNameRestores | src/main/java/at/htlleonding/LoginService.java:122-128 | deleting a just-registered user by its username gives back exactly the store before registration |
| LoginProperties.DuplicateRegistrationRejected | src/main/java/at/htlleonding/LoginService.java:40-42 | registering a valid record under a taken username throws "Username already exists!" |
| LoginProperties.ResetCodeFlow | src/main/java/at/htlleonding/LoginService.java:65-91 | a handed-out code redeems, the new password typed twice then logs in, and the same code redeems a second time |
| LoginProperties.WrongCodeRejected | src/main/java/at/htlleonding/LoginService.java:86-88 | a code other than the pending one answers false and changes nothing |
| LoginProperties.UpdateUserCanDuplicateUsername | src/main/java/at/htlleonding/LoginService.java:93-97 | some store with unique usernames has two records with one username after a successful update |
| Jwt.Expiry | src/main/java/at/htlleonding/jwt/JWTService.java:26 | the expiry second is the current second plus 60 times the minutes, with the product wrapped to 32 bits in the static service |
| Jwt.Sign | src/main/java/at/htlleonding/jwt/JWTService.java:76-81 | fails exactly when the key is `null` or has no bytes; otherwise 43 characters without a `.`, decoding to the HMAC-SHA256 tag of the data's bytes |
| Jwt.GenerateToken | src/main/java/at/htlleonding/jwt/JWTService.java:21-41 | fails with the creation error exactly when there is no usable key; otherwise header, payload and signature joined by `.`, splitting back into exactly those three parts |
| Jwt.VerifyToken | src/main/java/at/htlleonding/jwt/JWTService.java:43-74 | any split other than three parts answers false; with three parts, a failure to sign throws, a signature other than the recomputed one answers false, and with a matching signature an undecodable payload or unreadable `exp` throws while a readable `exp` answers whether the current second is before it; every exception is the verification error |
| JwtProperties.GeneratedTokenVerifies | src/main/java/at/htlleonding/jwt/JWTService.java:43-74 | when the platform reads the payload back (`Jwt.ReadsBack`: the charset returns the payload text and the JSON reader finds its `exp`), an issued token is checked by its expiry alone: accepted exactly while the current second is before `exp` |
| JwtProperties.FreshTokenAccepted | src/main/java/at/htlleonding/jwt/JWTService.java:26 | when the platform reads the payload back (`Jwt.ReadsBack`), with a positive lifetime the injected service accepts its token at the instant of issue |
| JwtProperties.ExpiredTokenRejected | src/main/java/at/htlleonding/jwt/JWTService.java:69 | when the platform reads the payload back (`Jwt.ReadsBack`), from its expiry second on an issued token answers false and does not throw |
| JwtProperties.PatternUsernameTokenThrows | src/main/java/at/htlleonding/jwt/JWTService.java:31-72 | for a username the `@Pattern` of `User` admits, whose final line feed the payload writes unescaped into a JSON string, a reader that refuses raw control characters in strings makes the check of the issued token throw |
| JwtProperties.ForgedSignatureRejected | src/main/java/at/htlleonding/jwt/JWTService.java:56-60 | any other signature segment on an issued token answers false |
| JwtProperties.TrailingSeparatorIgnored | src/main/java/at/htlleonding/jwt/JWTService.java:44 | appending `.` to any token never changes the verdict |
| JwtProperties.FewSeparatorsRejected | src/main/java/at/htlleonding/jwt/JWTService.java:44-48 | a token with fewer than two dots answers false without throwing |
| JwtProperties.VariantsAgree | src/main/java/at/htlleonding/JWTService.java:17-70 | while the lifetime in seconds fits in an `int`, both services issue the same token for the same key, and their checks always agree |
| JwtProperties.IntMinutesWrap | src/main/java/at/htlleonding/JWTService.java:22 | at 35791395 minutes the static service's expiry falls 2147483596 seconds before now, while 64-bit arithmetic gives 2147483700 after |
| JwtProperties.IntMinutesOverflow | src/main/java/at/htlleonding/JWTService.java:22 | when the platform reads the payload back (`Jwt.ReadsBack`), the static service refuses its own fresh token issued for 35791395 minutes |
| JwtProperties.HeaderSegmentIsStandard | src/main/java/at/htlleonding/jwt/JWTService.java:22-24 | on an ASCII-compatible platform the header segment is `eyJhbGciOiJIUzI1NiIsInR5cCI6IkpXVCJ9` |
| JwtFilter.BearerToken | src/main/java/at/htlleonding/jwt/JWTFilter.java:25 | the token is what follows the 7-character `Bearer ` prefix |
| JwtFilter.Filter | src/main/java/at/htlleonding/jwt/JWTFilter.java:17-30 | the request proceeds exactly when the header is present, starts with `Bearer ` and its token verifies; every abort is 401; the filter fails exactly when verifying the bearer token throws, with that exception |
| JwtFilter.LowerCaseSchemeRejected | src/main/java/at/htlleonding/jwt/JWTFilter.java:20 | the prefix is case-sensitive: `bearer ` is refused with 401 whatever follows |
| JwtFilter.IssuedTokenPasses | src/main/java/at/htlleonding/jwt/JWTFilter.java:17-30 | when the platform reads the payload back (`Jwt.ReadsBack`), a token the injected service issued, sent as `Bearer <token>` before its expiry second, lets the request through |
| JwtFilter.ExpiredTokenBlocked | src/main/java/at/htlleonding/jwt/JWTFilter.java:27-29 | when the platform reads the payload back (`Jwt.ReadsBack`), from its expiry second on the same header is refused with 401 |
| JwtFilter.PatternUserRequestThrows | src/main/java/at/htlleonding/jwt/JWTFilter.java:27-29 | for a username the `@Pattern` of `User` admits and a reader that refuses raw control characters in strings, the request carrying the issued token neither proceeds nor gets 401: the verification exception leaves the filter |

## Left out

- Logging, the `@Transactional` boundaries and the persistence context's flush timing are not modelled. Each operation's effect is applied to the store at once.
- Argon2, HMAC-SHA256, the platform charset and the JSON reader are parameters. Their internals are outside the model.
- `Jwt.VerifyToken` reads `exp` through the JSON-reader parameter. The model does not describe which texts a JSON reader accepts.
- `JwtProperties.GeneratedTokenVerifies`: it and the lemmas built on it (`FreshTokenAccepted`, `ExpiredTokenRejected`, `IntMinutesOverflow`, `JwtFilter.IssuedTokenPasses`, `JwtFilter.ExpiredTokenBlocked`) assume `Jwt.ReadsBack`, that the JSON reader gets `exp` back out of the payload. The payload writes the username unescaped inside a JSON string, so a conforming reader refuses it for any username containing `"`, `\` or a control character, and that includes the final line feed the username pattern requires. `JwtProperties.PatternUsernameTokenThrows` and `JwtFilter.PatternUserRequestThrows` prove that, with a reader that refuses the raw line feed (`Jwt.RefusesRawLineFeed`), the check throws for every pattern-valid username.
- `UUID.randomUUID()`, generated ids, the salt Argon2 draws and `System.currentTimeMillis()` are arguments of the operations.
- `Jwt.Expiry`: the clock reading is a non-negative `long`, so readings before 1970 are excluded. For those, Java's `/ 1000` rounds toward zero while the model's division rounds down. The same restriction applies to `Jwt.VerifyToken` and `JwtFilter.Filter`.
- The environment read of `SECRET_KEY` is the `key` argument of `EnvironmentSigner`.
- `LoginService.AddUser`: the bean-validation run at persist time (the `@NotNull` and `@Pattern` constraints) is not applied. The constraints are stated as predicates, and `LoginService.BeanValidPassesChecks` relates them to `checkArguments`.
- `LoginService.AddUser`: a `null` user record (a `NullPointerException`) is not modelled, because the record is a value. The same holds for `LoginService.UpdateUser`.
- `LoginService.GetUserById`: ids are values, so a `null` id is not modelled. In the code `findById(null)` throws before any lookup. The same holds for `LoginService.DeleteUser`, where the library exception would come before "User not found!".
- `LoginService.AddUser`: an id already set on the incoming record is replaced by the fresh id. The persistence library's refusal to `persist` a record whose generated id is already set is not modelled.
- `LoginService.UpdateUser`: the bean-validation run when `merge` is flushed (the `@NotNull` and `@Pattern` constraints, whose failure rolls the transaction back) is not applied. The record is stored as given once `checkArguments` passes.
- `LoginService.UpdateUser`: `merge` of a record with an unknown id is modelled as an insert under a fresh id.
- `UserStore.FindByUsername`: the query's row order is not specified by the code. The first result is taken to be the least id.
- In `src/main/java/at/htlleonding/JWTService.java` line 54 the closing parenthesis of the `if` condition is missing, so that class does not compile. It is modelled as if the parenthesis were present.
- `LoginResource` holds unresolved merge markers. It, the DTO, `CredentialManager` (which only supplies the pepper, a parameter here) and the tests are not part of this model.
- Concurrency between requests is not modelled.

=== FILE: base64url.dfy ===
/**
 The base64url alphabet of section 5 of RFC 4648, as used by
 `Base64.getUrlEncoder().withoutPadding()` (padding omitted as section 3.2
 permits) and by `Base64.getUrlDecoder()`, which accepts both padded and
 unpadded input.
 */
module Base64Url {
  import opened Wrappers

  type byte = b: int | 0 <= b < 256

  /** The character that stands for the 6-bit value `v`. */
  function EncodeChar(v: int): (c: char)
    requires 0 <= v < 64
  {
    if v < 26 then ('A' as int + v) as char
    else if v < 52 then ('a' as int + (v - 26)) as char
    else if v < 62 then ('0' as int + (v - 52)) as char
    else if v == 62 then '-'
    else '_'
  }

  /** The 6-bit value a character stands for, if it is in the alphabet. */
  function DecodeChar(c: char): (r: Option<int>)
    ensures r.Some? ==> 0 <= r.value < 64 && EncodeChar(r.value) == c
  {
    if 'A' <= c <= 'Z' then Some(c as int - 'A' as int)
    else if 'a' <= c <= 'z' then Some(c as int - 'a' as int + 26)
    else if '0' <= c <= '9' then Some(c as int - '0' as int + 52)
    else if c == '-' then Some(62)
    else if c == '_' then Some(63)
    else None
  }

  /** Membership in the base64url alphabet. */
  predicate IsUrlChar(c: char) {
    DecodeChar(c).Some?
  }

  lemma EncodeCharInverse(v: int)
    requires 0 <= v < 64
    ensures DecodeChar(EncodeChar(v)) == Some(v)
  {
  }

  /** Neither the JWS separator nor the padding character is in the alphabet. */
  lemma SeparatorsNotInAlphabet()
    ensures !IsUrlChar('.') && !IsUrlChar('=')
  {
  }

  /** Encoding without padding: every 3 bytes become 4 characters, a final 1 or 2 bytes become 2 or 3. */
  function Encode(b: seq<byte>): (s: string)
    ensures forall i :: 0 <= i < |s| ==> IsUrlChar(s[i])
  {
    if |b| == 0 then ""
    else if |b| == 1 then
      [EncodeChar(b[0] / 4), EncodeChar((b[0] % 4) * 16)]
    else if |b| == 2 then
      [EncodeChar(b[0] / 4), EncodeChar((b[0] % 4) * 16 + b[1] / 16), EncodeChar((b[1] % 16) * 4)]
    else
      Quad(b[0], b[1], b[2]) + Encode(b[3..])
  }

  /** The four characters standing for one whole unit of three bytes. */
  function Quad(b0: byte, b1: byte, b2: byte): (s: string)
    ensures |s| == 4 && forall i :: 0 <= i < 4 ==> IsUrlChar(s[i])
  {
    [EncodeChar(b0 / 4), EncodeChar((b0 % 4) * 16 + b1 / 16),
     EncodeChar((b1 % 16) * 4 + b2 / 64), EncodeChar(b2 % 64)]
  }

  /** Unpadded encoding of `n` bytes has `ceil(4n/3)` characters. */
  lemma {:induction false} EncodeLength(b: seq<byte>)
    ensures |Encode(b)| == (4 * |b| + 2) / 3
    decreases |b|
  {
    if |b| >= 3 {
      EncodeLength(b[3..]);
    }
  }

  /** Encoded text never holds a `.` or a `=`. */
  lemma EncodeHasNoSeparator(b: seq<byte>)
    ensures '.' !in Encode(b) && '=' !in Encode(b)
  {
    SeparatorsNotInAlphabet();
  }

  /** The byte formed by two 6-bit values (the first 8 of their 12 bits). */
  function Byte0(v0: int, v1: int): byte
    requires 0 <= v0 < 64 && 0 <= v1 < 64
  {
    v0 * 4 + v1 / 16
  }

  function Byte1(v1: int, v2: int): byte
    requires 0 <= v1 < 64 && 0 <= v2 < 64
  {
    (v1 % 16) * 16 + v2 / 4
  }

  function Byte2(v2: int, v3: int): byte
    requires 0 <= v2 < 64 && 0 <= v3 < 64
  {
    (v2 % 4) * 64 + v3
  }

  /**
   `Base64.getUrlDecoder().decode(s)`: `None` where Java throws
   `IllegalArgumentException`. Whole units of four alphabet characters give
   three bytes; a final unit of two or three characters gives one or two
   bytes, optionally followed by the padding that completes it to four
   (`==` after two, `=` after three), and nothing may follow padding. Bits
   left over in a final unit are ignored.
   */
  function Decode(s: string): (r: Option<seq<byte>>)
    decreases |s|
  {
    if |s| == 0 then Some([])
    else if |s| == 1 then None
    else
      var v0 := DecodeChar(s[0]);
      var v1 := DecodeChar(s[1]);
      if v0.None? || v1.None? then None
      else
        var b0 := Byte0(v0.value, v1.value);
        if |s| == 2 then Some([b0])
        else if s[2] == '=' then
          (if |s| == 4 && s[3] == '=' then Some([b0]) else None)
        else
          var v2 := DecodeChar(s[2]);
          if v2.None? then None
          else
            var b1 := Byte1(v1.value, v2.value);
            if |s| == 3 then Some([b0, b1])
            else if s[3] == '=' then
              (if |s| == 4 then Some([b0, b1]) else None)
            else
              var v3 := DecodeChar(s[3]);
              if v3.None? then None
              else
                var rest := Decode(s[4..]);
                if rest.None? then None
                else Some([b0, b1, Byte2(v2.value, v3.value)] + rest.value)
  }

  lemma ByteArithmetic(b0: byte, b1: byte, b2: byte)
    ensures Byte0(b0 / 4, (b0 % 4) * 16 + b1 / 16) == b0
    ensures Byte1((b0 % 4) * 16 + b1 / 16, (b1 % 16) * 4 + b2 / 64) == b1
    ensures Byte2((b1 % 16) * 4 + b2 / 64, b2 % 64) == b2
  {
  }

  /** A leading unit of four alphabet characters decodes to three bytes before the rest. */
  lemma DecodeFullUnit(s: string, v0: int, v1: int, v2: int, v3: int)
    requires |s| >= 4 && 0 <= v0 < 64 && 0 <= v1 < 64 && 0 <= v2 < 64 && 0 <= v3 < 64
    requires s[0] == EncodeChar(v0) && s[1] == EncodeChar(v1)
    requires s[2] == EncodeChar(v2) && s[3] == EncodeChar(v3)
    requires Decode(s[4..]).Some?
    ensures Decode(s) == Some([Byte0(v0, v1), Byte1(v1, v2), Byte2(v2, v3)] + Decode(s[4..]).value)
  {
    EncodeCharInverse(v0);
    EncodeCharInverse(v1);
    EncodeCharInverse(v2);
    EncodeCharInverse(v3);
  }

  lemma DecodeEncodeOne(b0: byte)
    ensures Decode(Encode([b0])) == Some([b0])
  {
    var v0, v1 := b0 / 4, (b0 % 4) * 16;
    var s := [EncodeChar(v0), EncodeChar(v1)];
    assert Encode([b0]) == s;
    EncodeCharInverse(v0);
    EncodeCharInverse(v1);
    assert Decode(s) == Some([Byte0(v0, v1)]);
    assert Byte0(v0, v1) == b0;
  }

  lemma DecodeEncodeTwo(b0: byte, b1: byte)
    ensures Decode(Encode([b0, b1])) == Some([b0, b1])
  {
    var v0, v1, v2 := b0 / 4, (b0 % 4) * 16 + b1 / 16, (b1 % 16) * 4;
    var s := [EncodeChar(v0), EncodeChar(v1), EncodeChar(v2)];
    assert Encode([b0, b1]) == s;
    EncodeCharInverse(v0);
    EncodeCharInverse(v1);
    EncodeCharInverse(v2);
    assert Decode(s) == Some([Byte0(v0, v1), Byte1(v1, v2)]);
    ByteArithmetic(b0, b1, 0);
  }

  /** A leading unit of three bytes survives the round trip when the rest does. */
  lemma DecodeEncodeUnit(b0: byte, b1: byte, b2: byte, rest: seq<byte>)
    requires Decode(Encode(rest)) == Some(rest)
    ensures Decode(Quad(b0, b1, b2) + Encode(rest)) == Some([b0, b1, b2] + rest)
  {
    var v0, v1 := b0 / 4, (b0 % 4) * 16 + b1 / 16;
    var v2, v3 := (b1 % 16) * 4 + b2 / 64, b2 % 64;
    var s := Quad(b0, b1, b2) + Encode(rest);
    assert s[4..] == Encode(rest);
    DecodeFullUnit(s, v0, v1, v2, v3);
    ByteArithmetic(b0, b1, b2);
  }

  /** A final partial unit of one or two bytes survives the round trip. */
  lemma DecodeEncodeShort(b: seq<byte>)
    requires 1 <= |b| <= 2
    ensures Decode(Encode(b)) == Some(b)
  {
    if |b| == 1 {
      assert b == [b[0]];
      DecodeEncodeOne(b[0]);
    } else {
      assert b == [b[0], b[1]];
      DecodeEncodeTwo(b[0], b[1]);
    }
  }

  /** The step of the round trip: one more whole unit in front. */
  lemma DecodeEncodeStep(b: seq<byte>)
    requires |b| >= 3
    requires Decode(Encode(b[3..])) == Some(b[3..])
    ensures Decode(Encode(b)) == Some(b)
  {
    assert Encode(b) == Quad(b[0], b[1], b[2]) + Encode(b[3..]);
    DecodeEncodeUnit(b[0], b[1], b[2], b[3..]);
    FirstThree(b);
  }

  lemma FirstThree(b: seq<byte>)
    requires |b| >= 3
    ensures [b[0], b[1], b[2]] + b[3..] == b
  {
  }

  /** Decoding undoes unpadded encoding. */
  lemma {:induction false} DecodeEncode(b: seq<byte>)
    ensures Decode(Encode(b)) == Some(b)
    decreases |b|
  {
    if 1 <= |b| <= 2 {
      DecodeEncodeShort(b);
    } else if |b| >= 3 {
      DecodeEncode(b[3..]);
      DecodeEncodeStep(b);
    }
  }

  /** The bytes of an ASCII string, as every ASCII-compatible charset produces them. */
  function AsciiBytes(s: string): (r: seq<byte>)
    requires forall i :: 0 <= i < |s| ==> s[i] as int < 128
    ensures |r| == |s|
    ensures forall i :: 0 <= i < |s| ==> r[i] == s[i] as int
  {
    seq(|s|, i requires 0 <= i < |s| => s[i] as int)
  }
}

=== FILE: java_text.dfy ===
/**
 Java semantics that the services rely on and that differ from Dafny's
 built-in ones: fixed-width integer arithmetic, string concatenation with
 `null`, `String.split` with its trailing-empty-string rule, `startsWith`
 and `Long.toString`.
 */
module JavaText {
  import opened Wrappers

  const Int32Min: int := -0x8000_0000
  const Int32Span: int := 0x1_0000_0000
  const Int64Min: int := -0x8000_0000_0000_0000
  const Int64Span: int := 0x1_0000_0000_0000_0000

  /** A Java `int`. */
  type Int32 = n: int | -0x8000_0000 <= n < 0x8000_0000

  /** A Java `long`. */
  type Int64 = n: int | -0x8000_0000_0000_0000 <= n < 0x8000_0000_0000_0000

  /** A reading of `System.currentTimeMillis()`: a non-negative `long`. */
  type Millis = n: int | 0 <= n < 0x8000_0000_0000_0000

  /** Two's-complement truncation of an exact integer to 32 bits. */
  function Wrap32(x: int): (r: Int32)
    ensures Int32Min <= x < -Int32Min ==> r == x
    ensures (r - x) % Int32Span == 0
  {
    (x - Int32Min) % Int32Span + Int32Min
  }

  /** Two's-complement truncation of an exact integer to 64 bits. */
  function Wrap64(x: int): (r: Int64)
    ensures Int64Min <= x < -Int64Min ==> r == x
    ensures (r - x) % Int64Span == 0
  {
    (x - Int64Min) % Int64Span + Int64Min
  }

  /** The text Java's `+` appends for a possibly-null `String` operand. */
  function JavaStr(s: Option<string>): (r: string)
    ensures s.Some? ==> r == s.value
    ensures s.None? ==> r == "null"
  {
    match s
    case Some(v) => v
    case None => "null"
  }

  /** `s.startsWith(prefix)`. */
  predicate StartsWith(s: string, prefix: string) {
    |prefix| <= |s| && s[..|prefix|] == prefix
  }

  /** Concatenation of `parts` with `d` between neighbours. */
  function Join(parts: seq<string>, d: char): string
    requires |parts| > 0
  {
    if |parts| == 1 then parts[0] else parts[0] + [d] + Join(parts[1..], d)
  }

  /** Every piece of `s` between occurrences of `d`, empty pieces included. */
  function SplitOn(s: string, d: char): (parts: seq<string>)
    ensures |parts| > 0
    ensures forall i :: 0 <= i < |parts| ==> d !in parts[i]
    ensures Join(parts, d) == s
  {
    if |s| == 0 then [""]
    else
      var rest := SplitOn(s[1..], d);
      if s[0] == d then
        [""] + rest
      else
        assert Join(rest, d) == s[1..];
        var first := [s[0]] + rest[0];
        if |rest| == 1 then [first]
        else
          assert Join([first] + rest[1..], d) == first + [d] + Join(rest[1..], d);
          [first] + rest[1..]
  }

  /** Removes the empty strings at the end of `parts`. */
  function DropTrailingEmpty(parts: seq<string>): (r: seq<string>)
    ensures |r| <= |parts| && r == parts[..|r|]
    ensures |r| > 0 ==> r[|r| - 1] != ""
    ensures forall i :: |r| <= i < |parts| ==> parts[i] == ""
  {
    if |parts| > 0 && parts[|parts| - 1] == "" then DropTrailingEmpty(parts[..|parts| - 1])
    else parts
  }

  /**
   `s.split(regex)` where the regex matches exactly the single character `d`
   (as `"\\."` does): no occurrence gives `[s]`, otherwise the pieces with
   trailing empty strings removed.
   */
  function JavaSplit(s: string, d: char): (parts: seq<string>)
    ensures forall i :: 0 <= i < |parts| ==> d !in parts[i]
  {
    if d !in s then [s] else DropTrailingEmpty(SplitOn(s, d))
  }

  /** The number of occurrences of `c` in `s`. */
  function Count(s: string, c: char): nat {
    if |s| == 0 then 0 else (if s[0] == c then 1 else 0) + Count(s[1..], c)
  }

  lemma {:induction false} SplitOnCount(s: string, d: char)
    ensures |SplitOn(s, d)| == Count(s, d) + 1
  {
    if |s| > 0 {
      SplitOnCount(s[1..], d);
    }
  }

  /** Splitting a piece-free prefix, the delimiter and a rest peels off the prefix. */
  lemma {:induction false} SplitOnPrefix(a: string, d: char, b: string)
    requires d !in a
    ensures SplitOn(a + [d] + b, d) == [a] + SplitOn(b, d)
  {
    if |a| == 0 {
      assert a + [d] + b == [d] + b;
      assert ([d] + b)[1..] == b;
    } else {
      assert (a + [d] + b)[1..] == a[1..] + [d] + b;
      SplitOnPrefix(a[1..], d, b);
      assert [a[0]] + a[1..] == a;
    }
  }

  lemma SplitOnNoDelimiter(a: string, d: char)
    requires d !in a
    ensures SplitOn(a, d) == [a]
  {
    if |a| > 0 {
      SplitOnNoDelimiter(a[1..], d);
      assert [a[0]] + a[1..] == a;
    }
  }

  /** Three delimiter-free pieces whose last is non-empty split back into themselves. */
  lemma JavaSplitThree(a: string, b: string, c: string, d: char)
    requires d !in a && d !in b && d !in c
    requires c != ""
    ensures JavaSplit(a + [d] + b + [d] + c, d) == [a, b, c]
  {
    var s := a + [d] + b + [d] + c;
    var tail := b + [d] + c;
    assert s == a + [d] + tail;
    SplitOnPrefix(a, d, tail);
    SplitOnPrefix(b, d, c);
    SplitOnNoDelimiter(c, d);
    var parts := SplitOn(s, d);
    assert parts == [a, b, c];
    assert s[|a|] == d;
    assert DropTrailingEmpty(parts) == parts;
  }

  lemma {:induction false} DropTrailingEmptyAppend(parts: seq<string>)
    ensures DropTrailingEmpty(parts + [""]) == DropTrailingEmpty(parts)
  {
    assert (parts + [""])[..|parts|] == parts;
  }

  lemma {:induction false} SplitOnAppend(s: string, d: char)
    ensures SplitOn(s + [d], d) == SplitOn(s, d)[..|SplitOn(s, d)| - 1]
                                 + [SplitOn(s, d)[|SplitOn(s, d)| - 1]] + [""]
  {
    if |s| == 0 {
      assert s + [d] == [d] + "";
    } else {
      assert (s + [d])[1..] == s[1..] + [d];
      SplitOnAppend(s[1..], d);
    }
  }

  /** A trailing delimiter never changes what `JavaSplit` yields, except on an empty string. */
  lemma JavaSplitTrailingDelimiter(s: string, d: char)
    ensures s != "" ==> JavaSplit(s + [d], d) == JavaSplit(s, d)
    ensures s == "" ==> JavaSplit(s + [d], d) == [] && JavaSplit(s, d) == [""]
  {
    var parts := SplitOn(s, d);
    SplitOnAppend(s, d);
    assert parts[..|parts| - 1] + [parts[|parts| - 1]] == parts;
    assert SplitOn(s + [d], d) == parts + [""];
    DropTrailingEmptyAppend(parts);
    assert d in s + [d] by { assert (s + [d])[|s|] == d; }
    if d !in s {
      SplitOnNoDelimiter(s, d);
    }
  }

  /** A string with fewer than two delimiters never splits into three pieces. */
  lemma JavaSplitFewDelimiters(s: string, d: char)
    requires Count(s, d) < 2
    ensures |JavaSplit(s, d)| < 3
  {
    SplitOnCount(s, d);
  }

  /** `s.indexOf(c)`: the first position of `c`, or -1. */
  function IndexOf(s: string, c: char): (i: int)
    ensures -1 <= i
    ensures i == -1 <==> c !in s
    ensures 0 <= i ==> i < |s| && s[i] == c && c !in s[..i]
  {
    if |s| == 0 then -1
    else if s[0] == c then 0
    else
      var j := IndexOf(s[1..], c);
      assert s == [s[0]] + s[1..];
      assert j >= 0 ==> s[..j + 1] == [s[0]] + s[1..][..j];
      if j == -1 then -1 else j + 1
  }

  /** `c` occurs exactly once in `s`, at `a`, iff no other position holds it. */
  lemma {:induction false} CountOnce(s: string, c: char, a: int)
    requires 0 <= a < |s| && s[a] == c
    ensures Count(s, c) == 1 <==> forall i :: 0 <= i < |s| && i != a ==> s[i] != c
  {
    if a == 0 {
      CountZero(s[1..], c);
    } else {
      CountOnce(s[1..], c, a - 1);
      assert forall i :: 1 <= i < |s| ==> s[i] == s[1..][i - 1];
      if s[0] == c {
        assert Count(s[1..], c) >= 1 by { CountZero(s[1..], c); }
      }
    }
  }

  lemma {:induction false} CountZero(s: string, c: char)
    ensures Count(s, c) == 0 <==> c !in s
  {
    if |s| > 0 {
      CountZero(s[1..], c);
      assert s == [s[0]] + s[1..];
    }
  }

  /** A non-empty string of ASCII decimal digits. */
  predicate IsDecimal(s: string) {
    |s| > 0 && forall i :: 0 <= i < |s| ==> '0' <= s[i] <= '9'
  }

  /** Decimal digits with no leading zero, except for zero itself. */
  predicate IsCanonicalDecimal(s: string) {
    IsDecimal(s) && (s == "0" || s[0] != '0')
  }

  /** The decimal digits of a non-negative number, most significant first. */
  function Digits(n: nat): (r: string)
    ensures IsCanonicalDecimal(r)
    decreases n
  {
    var last := [(('0' as int) + n % 10) as char];
    if n < 10 then last else Digits(n / 10) + last
  }

  /**
   `Long.toString(n)`: canonical decimal digits denoting the magnitude, with
   a `-` in front of a negative value.
   */
  function LongToString(n: Int64): (r: string)
    ensures n >= 0 ==> IsCanonicalDecimal(r) && DigitValue(r) == n
    ensures n < 0 ==> |r| > 1 && r[0] == '-' && IsCanonicalDecimal(r[1..]) && DigitValue(r[1..]) == -(n as int)
  {
    if n < 0 then
      var digits := Digits(-(n as int));
      DigitsValue(-(n as int));
      assert ("-" + digits)[1..] == digits;
      "-" + digits
    else
      DigitsValue(n);
      Digits(n)
  }

  /** The value a string of decimal digits denotes. */
  function DigitValue(s: string): int
    requires forall i :: 0 <= i < |s| ==> '0' <= s[i] <= '9'
    decreases |s|
  {
    if |s| == 0 then 0 else 10 * DigitValue(s[..|s| - 1]) + (s[|s| - 1] as int - '0' as int)
  }

  lemma {:induction false} DigitsValue(n: nat)
    ensures DigitValue(Digits(n)) == n
    decreases n
  {
    var d := Digits(n);
    if n >= 10 {
      DigitsValue(n / 10);
      assert d[..|d| - 1] == Digits(n / 10);
    }
  }
}

=== FILE: jwt_filter.dfy ===
/**
 The request filter guarding `@JWTRequired` resources: a request passes only
 with an `Authorization` header of the form `Bearer <token>` whose token the
 injected JWT service accepts; otherwise it is aborted with 401.
 */
module JwtFilter {
  import opened Wrappers
  import opened JavaText
  import opened Jwt
  import Users
  import JwtProperties

  /** What the filter does with the request: let it through, or abort it with a status. */
  datatype Decision = Proceed | Abort(status: int)

  const Unauthorized := 401
  const BearerPrefix := "Bearer "

  /** The token part of a header value that carries the bearer prefix. */
  function BearerToken(header: string): (t: string)
    requires StartsWith(header, BearerPrefix)
    ensures BearerPrefix + t == header
  {
    header[|BearerPrefix|..]
  }

  /**
   `JWTFilter.filter`: the header value is `None` when the request has no
   `Authorization` header. An exception thrown while verifying propagates out
   of the filter as a failure.
   */
  function Filter(p: Platform, pepper: string, nowMillis: Millis, authHeader: Option<string>)
    : (r: Result<Decision, TokenError>)
    ensures r == Success(Proceed) <==>
      && authHeader.Some? && StartsWith(authHeader.value, BearerPrefix)
      && VerifyToken(p, InjectedSigner(pepper), nowMillis, BearerToken(authHeader.value)) == Success(true)
    ensures r.Success? && r.value.Abort? ==> r.value.status == Unauthorized
    ensures r.Failure? ==>
      && authHeader.Some? && StartsWith(authHeader.value, BearerPrefix)
      && VerifyToken(p, InjectedSigner(pepper), nowMillis, BearerToken(authHeader.value)) == Failure(r.error)
    ensures
      (authHeader.Some? && StartsWith(authHeader.value, BearerPrefix)
       && VerifyToken(p, InjectedSigner(pepper), nowMillis, BearerToken(authHeader.value)).Failure?)
      ==> r.Failure?
  {
    if authHeader.None? || !StartsWith(authHeader.value, BearerPrefix) then
      Success(Abort(Unauthorized))
    else
      var token := BearerToken(authHeader.value);
      var verified :- VerifyToken(p, InjectedSigner(pepper), nowMillis, token);
      if verified then Success(Proceed) else Success(Abort(Unauthorized))
  }

  /** The prefix is matched exactly: a lower-case scheme is refused whatever token follows. */
  lemma LowerCaseSchemeRejected(p: Platform, pepper: string, nowMillis: Millis, token: string)
    ensures Filter(p, pepper, nowMillis, Some("bearer " + token)) == Success(Abort(Unauthorized))
  {
    assert ("bearer " + token)[0] == 'b';
  }

  /**
   A token the injected service issued, sent back as `Bearer <token>` before
   its expiry second, lets the request through.
   */
  lemma IssuedTokenPasses(p: Platform, pepper: string, issuedAt: Millis, username: Option<string>,
                          minutes: Int32, nowMillis: Millis)
    requires GenerateToken(p, InjectedSigner(pepper), issuedAt, username, minutes).Success?
    requires ReadsBack(p, username, Expiry(LongMinutes, issuedAt, minutes))
    requires nowMillis / 1000 < Expiry(LongMinutes, issuedAt, minutes)
    ensures
      var token := GenerateToken(p, InjectedSigner(pepper), issuedAt, username, minutes).value;
      Filter(p, pepper, nowMillis, Some(BearerPrefix + token)) == Success(Proceed)
  {
    var token := GenerateToken(p, InjectedSigner(pepper), issuedAt, username, minutes).value;
    JwtProperties.GeneratedTokenVerifies(p, InjectedSigner(pepper), issuedAt, username, minutes, nowMillis);
    assert BearerToken(BearerPrefix + token) == token;
  }

  /** Once the expiry second of an issued token is reached, the request is refused with 401. */
  lemma ExpiredTokenBlocked(p: Platform, pepper: string, issuedAt: Millis, username: Option<string>,
                            minutes: Int32, nowMillis: Millis)
    requires GenerateToken(p, InjectedSigner(pepper), issuedAt, username, minutes).Success?
    requires ReadsBack(p, username, Expiry(LongMinutes, issuedAt, minutes))
    requires nowMillis / 1000 >= Expiry(LongMinutes, issuedAt, minutes)
    ensures
      var token := GenerateToken(p, InjectedSigner(pepper), issuedAt, username, minutes).value;
      Filter(p, pepper, nowMillis, Some(BearerPrefix + token)) == Success(Abort(Unauthorized))
  {
    var token := GenerateToken(p, InjectedSigner(pepper), issuedAt, username, minutes).value;
    JwtProperties.GeneratedTokenVerifies(p, InjectedSigner(pepper), issuedAt, username, minutes, nowMillis);
    assert BearerToken(BearerPrefix + token) == token;
  }

  /**
   For a username the `@Pattern` admits, the filter neither lets the request
   through nor answers 401: verifying the issued token throws out of it.
   */
  lemma PatternUserRequestThrows(p: Platform, pepper: string, issuedAt: Millis, username: string,
                                 minutes: Int32, nowMillis: Millis)
    requires Users.MatchesUsernamePattern(username)
    requires GenerateToken(p, InjectedSigner(pepper), issuedAt, Some(username), minutes).Success?
    requires CharsetRoundTrip(p, Some(username), Expiry(LongMinutes, issuedAt, minutes))
    requires RefusesRawLineFeed(p)
    ensures
      var token := GenerateToken(p, InjectedSigner(pepper), issuedAt, Some(username), minutes).value;
      Filter(p, pepper, nowMillis, Some(BearerPrefix + token)) == Failure(VerifyingToken)
  {
    var token := GenerateToken(p, InjectedSigner(pepper), issuedAt, Some(username), minutes).value;
    JwtProperties.PatternUsernameTokenThrows(p, InjectedSigner(pepper), issuedAt, username, minutes, nowMillis);
    assert BearerToken(BearerPrefix + token) == token;
  }
}

=== FILE: jwt_properties.dfy ===
/**
 Properties relating token issue and token check: a fresh token is accepted
 until its expiry, a forged signature or a malformed split is refused, a
 trailing `.` is ignored, and the two services differ only through the key
 and 32-bit minute arithmetic.
 */
module JwtProperties {
  import opened Wrappers
  import opened JavaText
  import opened Base64Url
  import opened Jwt
  import Users

  /** An issued token is judged by its expiry alone: accepted exactly while the current second is before `exp`. */
  lemma GeneratedTokenVerifies(p: Platform, signer: Signer, issuedAt: Millis, username: Option<string>,
                               minutes: Int32, checkedAt: Millis)
    requires GenerateToken(p, signer, issuedAt, username, minutes).Success?
    requires ReadsBack(p, username, Expiry(signer.arithmetic, issuedAt, minutes))
    ensures VerifyToken(p, signer, checkedAt, GenerateToken(p, signer, issuedAt, username, minutes).value)
            == Success(checkedAt / 1000 < Expiry(signer.arithmetic, issuedAt, minutes))
  {
    var exp := Expiry(signer.arithmetic, issuedAt, minutes);
    DecodeEncode(p.getBytes(PayloadJson(username, exp)));
  }

  /** With a positive lifetime, the injected service accepts its token at the instant of issue. */
  lemma FreshTokenAccepted(p: Platform, pepper: string, now: Millis, username: Option<string>, minutes: Int32)
    requires minutes > 0
    requires GenerateToken(p, InjectedSigner(pepper), now, username, minutes).Success?
    requires ReadsBack(p, username, Expiry(LongMinutes, now, minutes))
    ensures VerifyToken(p, InjectedSigner(pepper), now,
                        GenerateToken(p, InjectedSigner(pepper), now, username, minutes).value) == Success(true)
  {
    GeneratedTokenVerifies(p, InjectedSigner(pepper), now, username, minutes, now);
  }

  /** Once its expiry second is reached, an issued token is refused without an exception. */
  lemma ExpiredTokenRejected(p: Platform, signer: Signer, issuedAt: Millis, username: Option<string>,
                             minutes: Int32, checkedAt: Millis)
    requires GenerateToken(p, signer, issuedAt, username, minutes).Success?
    requires ReadsBack(p, username, Expiry(signer.arithmetic, issuedAt, minutes))
    requires checkedAt / 1000 >= Expiry(signer.arithmetic, issuedAt, minutes)
    ensures VerifyToken(p, signer, checkedAt, GenerateToken(p, signer, issuedAt, username, minutes).value)
            == Success(false)
  {
    GeneratedTokenVerifies(p, signer, issuedAt, username, minutes, checkedAt);
  }

  /**
   The failing case of `GeneratedTokenVerifies`: every username the `@Pattern`
   admits ends in a line feed, the payload writes it unescaped inside a JSON
   string, and a reader that refuses such a raw control character (section 7
   of RFC 8259) makes the check of the issued token throw.
   */
  lemma PatternUsernameTokenThrows(p: Platform, signer: Signer, issuedAt: Millis, username: string,
                                   minutes: Int32, checkedAt: Millis)
    requires Users.MatchesUsernamePattern(username)
    requires GenerateToken(p, signer, issuedAt, Some(username), minutes).Success?
    requires CharsetRoundTrip(p, Some(username), Expiry(signer.arithmetic, issuedAt, minutes))
    requires RefusesRawLineFeed(p)
    ensures VerifyToken(p, signer, checkedAt, GenerateToken(p, signer, issuedAt, Some(username), minutes).value)
            == Failure(VerifyingToken)
  {
    var exp := Expiry(signer.arithmetic, issuedAt, minutes);
    Users.UsernamePatternEquivalence(username);
    assert username[|username| - 1] == '\n';
    DecodeEncode(p.getBytes(PayloadJson(Some(username), exp)));
  }

  /** Replacing an issued token's signature by any other segment makes the check answer false. */
  lemma ForgedSignatureRejected(p: Platform, signer: Signer, now: Millis, username: Option<string>,
                                minutes: Int32, forged: string, checkedAt: Millis)
    requires GenerateToken(p, signer, now, username, minutes).Success?
    requires forged != "" && '.' !in forged
    requires forged != JavaSplit(GenerateToken(p, signer, now, username, minutes).value, '.')[2]
    ensures var parts := JavaSplit(GenerateToken(p, signer, now, username, minutes).value, '.');
      VerifyToken(p, signer, checkedAt, parts[0] + "." + parts[1] + "." + forged) == Success(false)
  {
    var parts := JavaSplit(GenerateToken(p, signer, now, username, minutes).value, '.');
    JavaSplitThree(parts[0], parts[1], forged, '.');
  }

  /** A trailing `.` never changes the verdict: Java's split drops the empty last piece. */
  lemma TrailingSeparatorIgnored(p: Platform, signer: Signer, now: Millis, token: string)
    ensures VerifyToken(p, signer, now, token + ".") == VerifyToken(p, signer, now, token)
  {
    JavaSplitTrailingDelimiter(token, '.');
  }

  /** A string with fewer than two separators is refused without an exception. */
  lemma FewSeparatorsRejected(p: Platform, signer: Signer, now: Millis, token: string)
    requires Count(token, '.') < 2
    ensures VerifyToken(p, signer, now, token) == Success(false)
  {
    JavaSplitFewDelimiters(token, '.');
  }

  /**
   While the lifetime in seconds fits in an `int`, both services issue the
   same token for the same key; the check never depends on the arithmetic.
   */
  lemma VariantsAgree(p: Platform, key: Option<string>, now: Millis, username: Option<string>,
                      minutes: Int32, token: string)
    requires -35791394 <= minutes <= 35791394
    ensures GenerateToken(p, Signer(key, IntMinutes), now, username, minutes)
            == GenerateToken(p, Signer(key, LongMinutes), now, username, minutes)
    ensures VerifyToken(p, Signer(key, IntMinutes), now, token)
            == VerifyToken(p, Signer(key, LongMinutes), now, token)
  {
    assert Expiry(IntMinutes, now, minutes) == Expiry(LongMinutes, now, minutes);
  }

  /** From 35791395 minutes on, the static service's 32-bit product of minutes and 60 wraps negative. */
  lemma IntMinutesWrap(now: Millis)
    ensures Expiry(IntMinutes, now, 35791395) == now / 1000 - 2147483596
    ensures Expiry(LongMinutes, now, 35791395) == now / 1000 + 2147483700
  {
    assert 35791395 * 60 == 2147483700;
    assert Wrap32(2147483700) == -2147483596;
  }

  /**
   The static service's overflowed expiry lies about 68 years in the past,
   so its fresh token is refused at once.
   */
  lemma IntMinutesOverflow(p: Platform, key: Option<string>, now: Millis, username: Option<string>)
    requires GenerateToken(p, EnvironmentSigner(key), now, username, 35791395).Success?
    requires ReadsBack(p, username, Expiry(IntMinutes, now, 35791395))
    ensures VerifyToken(p, EnvironmentSigner(key), now,
                        GenerateToken(p, EnvironmentSigner(key), now, username, 35791395).value) == Success(false)
  {
    IntMinutesWrap(now);
    GeneratedTokenVerifies(p, EnvironmentSigner(key), now, username, 35791395, now);
  }

  /** Encoding proceeds three bytes at a time. */
  lemma EncodeByGroups(b: seq<byte>)
    requires |b| >= 3
    ensures Encode(b) == Encode([b[0], b[1], b[2]]) + Encode(b[3..])
  {
    EncodeThree(b[0], b[1], b[2]);
  }

  /** Three bytes encode to four characters. */
  lemma EncodeThree(b0: byte, b1: byte, b2: byte)
    ensures Encode([b0, b1, b2]) == Quad(b0, b1, b2)
  {
    assert [b0, b1, b2][3..] == [];
    assert Quad(b0, b1, b2) + [] == Quad(b0, b1, b2);
  }

  /** The nine three-byte groups of the header text, each with its four characters. */
  lemma HeaderGroup1()
    ensures Encode([123, 34, 97]) == "eyJh"
  {
    EncodeThree(123, 34, 97);
    assert 123 / 4 == 30 && (123 % 4) * 16 + 34 / 16 == 50;
    assert (34 % 16) * 4 + 97 / 64 == 9 && 97 % 64 == 33;
    assert EncodeChar(30) == 'e' && EncodeChar(50) == 'y' && EncodeChar(9) == 'J' && EncodeChar(33) == 'h';
  }

  lemma HeaderGroup2()
    ensures Encode([108, 103, 34]) == "bGci"
  {
    EncodeThree(108, 103, 34);
    assert 108 / 4 == 27 && (108 % 4) * 16 + 103 / 16 == 6;
    assert (103 % 16) * 4 + 34 / 64 == 28 && 34 % 64 == 34;
    assert EncodeChar(27) == 'b' && EncodeChar(6) == 'G' && EncodeChar(28) == 'c' && EncodeChar(34) == 'i';
  }

  lemma HeaderGroup3()
    ensures Encode([58, 34, 72]) == "OiJI"
  {
    EncodeThree(58, 34, 72);
    assert 58 / 4 == 14 && (58 % 4) * 16 + 34 / 16 == 34;
    assert (34 % 16) * 4 + 72 / 64 == 9 && 72 % 64 == 8;
    assert EncodeChar(14) == 'O' && EncodeChar(34) == 'i' && EncodeChar(9) == 'J' && EncodeChar(8) == 'I';
  }

  lemma HeaderGroup4()
    ensures Encode([83, 50, 53]) == "UzI1"
  {
    EncodeThree(83, 50, 53);
    assert 83 / 4 == 20 && (83 % 4) * 16 + 50 / 16 == 51;
    assert (50 % 16) * 4 + 53 / 64 == 8 && 53 % 64 == 53;
    assert EncodeChar(20) == 'U' && EncodeChar(51) == 'z' && EncodeChar(8) == 'I' && EncodeChar(53) == '1';
  }

  lemma HeaderGroup5()
    ensures Encode([54, 34, 44]) == "NiIs"
  {
    EncodeThree(54, 34, 44);
    assert 54 / 4 == 13 && (54 % 4) * 16 + 34 / 16 == 34;
    assert (34 % 16) * 4 + 44 / 64 == 8 && 44 % 64 == 44;
    assert EncodeChar(13) == 'N' && EncodeChar(34) == 'i' && EncodeChar(8) == 'I' && EncodeChar(44) == 's';
  }

  lemma HeaderGroup6()
    ensures Encode([34, 116, 121]) == "InR5"
  {
    EncodeThree(34, 116, 121);
    assert 34 / 4 == 8 && (34 % 4) * 16 + 116 / 16 == 39;
    assert (116 % 16) * 4 + 121 / 64 == 17 && 121 % 64 == 57;
    assert EncodeChar(8) == 'I' && EncodeChar(39) == 'n' && EncodeChar(17) == 'R' && EncodeChar(57) == '5';
  }

  lemma HeaderGroup7()
    ensures Encode([112, 34, 58]) == "cCI6"
  {
    EncodeThree(112, 34, 58);
    assert 112 / 4 == 28 && (112 % 4) * 16 + 34 / 16 == 2;
    assert (34 % 16) * 4 + 58 / 64 == 8 && 58 % 64 == 58;
    assert EncodeChar(28) == 'c' && EncodeChar(2) == 'C' && EncodeChar(8) == 'I' && EncodeChar(58) == '6';
  }

  lemma HeaderGroup8()
    ensures Encode([34, 74, 87]) == "IkpX"
  {
    EncodeThree(34, 74, 87);
    assert 34 / 4 == 8 && (34 % 4) * 16 + 74 / 16 == 36;
    assert (74 % 16) * 4 + 87 / 64 == 41 && 87 % 64 == 23;
    assert EncodeChar(8) == 'I' && EncodeChar(36) == 'k' && EncodeChar(41) == 'p' && EncodeChar(23) == 'X';
  }

  lemma HeaderGroup9()
    ensures Encode([84, 34, 125]) == "VCJ9"
  {
    EncodeThree(84, 34, 125);
    assert 84 / 4 == 21 && (84 % 4) * 16 + 34 / 16 == 2;
    assert (34 % 16) * 4 + 125 / 64 == 9 && 125 % 64 == 61;
    assert EncodeChar(21) == 'V' && EncodeChar(2) == 'C' && EncodeChar(9) == 'J' && EncodeChar(61) == '9';
  }

  /** The bytes of the header text in any ASCII-compatible charset, in three-byte groups. */
  const HeaderAscii: seq<byte> := [123, 34, 97] + ([108, 103, 34] + ([58, 34, 72] + ([83, 50, 53] + ([54, 34, 44] + ([34, 116, 121] + ([112, 34, 58] + ([34, 74, 87] + ([84, 34, 125]))))))))

  lemma HeaderAsciiBytes()
    ensures AsciiBytes(HeaderJson) == HeaderAscii
  {
  }

  /** A leading three-byte group is encoded on its own, in front of the rest. */
  lemma EncodeGroupThen(g: seq<byte>, rest: seq<byte>)
    requires |g| == 3
    ensures Encode(g + rest) == Encode(g) + Encode(rest)
  {
    var b := g + rest;
    assert b[3..] == rest;
    assert [b[0], b[1], b[2]] == g;
    EncodeByGroups(b);
  }

  /** On an ASCII-compatible platform the header segment is the familiar fixed text. */
  lemma HeaderSegmentIsStandard(p: Platform)
    requires p.getBytes(HeaderJson) == AsciiBytes(HeaderJson)
    ensures HeaderSegment(p) == StandardHeaderSegment
  {
    HeaderAsciiBytes();
    HeaderGroup1();
    HeaderGroup2();
    HeaderGroup3();
    HeaderGroup4();
    HeaderGroup5();
    HeaderGroup6();
    HeaderGroup7();
    HeaderGroup8();
    HeaderGroup9();
    EncodeGroupThen([123, 34, 97], [108, 103, 34] + ([58, 34, 72] + ([83, 50, 53] + ([54, 34, 44] + ([34, 116, 121] + ([112, 34, 58] + ([34, 74, 87] + ([84, 34, 125]))))))));
    EncodeGroupThen([108, 103, 34], [58, 34, 72] + ([83, 50, 53] + ([54, 34, 44] + ([34, 116, 121] + ([112, 34, 58] + ([34, 74, 87] + ([84, 34, 125])))))));
    EncodeGroupThen([58, 34, 72], [83, 50, 53] + ([54, 34, 44] + ([34, 116, 121] + ([112, 34, 58] + ([34, 74, 87] + ([84, 34, 125]))))));
    EncodeGroupThen([83, 50, 53], [54, 34, 44] + ([34, 116, 121] + ([112, 34, 58] + ([34, 74, 87] + ([84, 34, 125])))));
    EncodeGroupThen([54, 34, 44], [34, 116, 121] + ([112, 34, 58] + ([34, 74, 87] + ([84, 34, 125]))));
    EncodeGroupThen([34, 116, 121], [112, 34, 58] + ([34, 74, 87] + ([84, 34, 125])));
    EncodeGroupThen([112, 34, 58], [34, 74, 87] + ([84, 34, 125]));
    EncodeGroupThen([34, 74, 87], [84, 34, 125]);
  }
}

=== FILE: jwt_service.dfy ===
/**
 Issuing and checking HS256 bearer tokens in the JWS compact serialisation
 (section 7.1 of RFC 7515, HMAC with SHA-256 as in section 3.2 of RFC 7518):
 three unpadded base64url segments joined by `.`.

 The two token services of the code base are one function here, told apart
 by a `Signer`: the injected service signs with the configured pepper and
 widens the minute count to 64 bits before multiplying; the static service
 signs with the `SECRET_KEY` environment value read once at class load
 (absent when unset) and multiplies minutes in 32 bits.
 */
module Jwt {
  import opened Wrappers
  import opened JavaText
  import opened Base64Url

  /** An HMAC-SHA256 tag: 32 bytes. */
  type Mac = m: seq<byte> | |m| == 32 witness seq(32, i => 0)

  /**
   What the services take from the platform: `String.getBytes()` and
   `new String(bytes)` in the platform charset, `Mac("HmacSHA256")` keyed
   with the first argument, and the JSON reader's
   `readObject().getJsonNumber("exp").longValue()` (absent on any failure).
   */
  datatype Platform = Platform(
    getBytes: string -> seq<byte>,
    newString: seq<byte> -> string,
    hmacSha256: (seq<byte>, seq<byte>) -> Mac,
    readExp: string -> Option<Int64>)

  /** How the expiry is computed from the minute count. */
  datatype Arithmetic = LongMinutes | IntMinutes

  datatype Signer = Signer(key: Option<string>, arithmetic: Arithmetic)

  /** The injected service: keyed with the pepper, minutes multiplied as `long`. */
  function InjectedSigner(pepper: string): Signer {
    Signer(Some(pepper), LongMinutes)
  }

  /** The static service: keyed with the `SECRET_KEY` environment value, minutes multiplied as `int`. */
  function EnvironmentSigner(secretKey: Option<string>): Signer {
    Signer(secretKey, IntMinutes)
  }

  /** The `RuntimeException`s the services throw. */
  datatype TokenError = CreatingToken | VerifyingToken

  const HeaderJson := "{\"alg\":\"HS256\",\"typ\":\"JWT\"}"

  /**
   The header segment every ASCII-compatible charset yields,
   "eyJhbGciOiJIUzI1NiIsInR5cCI6IkpXVCJ9", written as its nine four-character
   groups.
   */
  const StandardHeaderSegment: string := "eyJh" + ("bGci" + ("OiJI" + ("UzI1" + ("NiIs" + ("InR5" + ("cCI6" + ("IkpX" + ("VCJ9"))))))))

  function HeaderSegment(p: Platform): string {
    Encode(p.getBytes(HeaderJson))
  }

  /** The payload text, including the stray `}` that ends up inside the username string. */
  function PayloadJson(username: Option<string>, exp: Int64): string {
    "{\"username\":\"}" + JavaStr(username) + "\",\"exp\":" + LongToString(exp) + "}"
  }

  /** The platform charset gives back the payload text from its bytes. */
  ghost predicate CharsetRoundTrip(p: Platform, username: Option<string>, exp: Int64) {
    p.newString(p.getBytes(PayloadJson(username, exp))) == PayloadJson(username, exp)
  }

  /**
   What the platform must do for an issued token to be read back: decoding
   the payload's bytes gives back the payload text, and the JSON reader finds
   the `exp` written into it.
   */
  ghost predicate ReadsBack(p: Platform, username: Option<string>, exp: Int64) {
    CharsetRoundTrip(p, username, exp) && p.readExp(PayloadJson(username, exp)) == Some(exp)
  }

  /**
   A JSON reader that, as section 7 of RFC 8259 demands, refuses a payload
   whose username string holds a raw line feed.
   */
  ghost predicate RefusesRawLineFeed(p: Platform) {
    forall name: string, exp: Int64 :: '\n' in name ==> p.readExp(PayloadJson(Some(name), exp)).None?
  }

  function PayloadSegment(p: Platform, username: Option<string>, exp: Int64): string {
    Encode(p.getBytes(PayloadJson(username, exp)))
  }

  /** The expiry in epoch seconds: the current second plus the lifetime in seconds. */
  function Expiry(a: Arithmetic, nowMillis: Millis, minutes: Int32): (exp: Int64)
    ensures a == LongMinutes ==> exp == nowMillis / 1000 + minutes * 60
    ensures a == IntMinutes ==> exp == nowMillis / 1000 + Wrap32(minutes * 60)
  {
    var seconds := if a == LongMinutes then minutes * 60 else Wrap32(minutes * 60);
    Wrap64(nowMillis / 1000 + seconds)
  }

  /**
   `encryptHmac256(data)`: absent when the key is `null` or encodes to no
   bytes (`SecretKeySpec` rejects an empty key); otherwise the tag, encoded.
   */
  function Sign(p: Platform, key: Option<string>, data: string): (r: Option<string>)
    ensures r.Some? <==> key.Some? && p.getBytes(key.value) != []
    ensures r.Some? ==> |r.value| == 43 && '.' !in r.value
    ensures r.Some? ==> Decode(r.value) == Some(p.hmacSha256(p.getBytes(key.value), p.getBytes(data)))
  {
    match key
    case None => None
    case Some(k) =>
      var keyBytes := p.getBytes(k);
      if keyBytes == [] then None
      else
        var tag := p.hmacSha256(keyBytes, p.getBytes(data));
        EncodeHasNoSeparator(tag);
        EncodeLength(tag);
        DecodeEncode(tag);
        Some(Encode(tag))
  }

  /** `generateToken(username, minutes)` at `nowMillis`. */
  function GenerateToken(p: Platform, signer: Signer, nowMillis: Millis, username: Option<string>, minutes: Int32)
    : (r: Result<string, TokenError>)
    ensures r.Failure? <==> Sign(p, signer.key, "").None?
    ensures r.Failure? ==> r.error == CreatingToken
    ensures r.Success? ==>
      var h := HeaderSegment(p);
      var pl := PayloadSegment(p, username, Expiry(signer.arithmetic, nowMillis, minutes));
      && JavaSplit(r.value, '.') == [h, pl, Sign(p, signer.key, h + "." + pl).value]
      && r.value == h + "." + pl + "." + Sign(p, signer.key, h + "." + pl).value
  {
    var h := HeaderSegment(p);
    var pl := PayloadSegment(p, username, Expiry(signer.arithmetic, nowMillis, minutes));
    match Sign(p, signer.key, h + "." + pl)
    case None => Failure(CreatingToken)
    case Some(sig) =>
      EncodeHasNoSeparator(p.getBytes(HeaderJson));
      EncodeHasNoSeparator(p.getBytes(PayloadJson(username, Expiry(signer.arithmetic, nowMillis, minutes))));
      JavaSplitThree(h, pl, sig, '.');
      Success(h + "." + pl + "." + sig)
  }

  /**
   `verifyToken(token)` at `nowMillis`: false unless the split yields three
   parts and the third equals the recomputed signature of the first two;
   then whether the payload's `exp` lies after the current second. Key,
   decoding and parsing failures throw.
   */
  function VerifyToken(p: Platform, signer: Signer, nowMillis: Millis, token: string)
    : (r: Result<bool, TokenError>)
    ensures |JavaSplit(token, '.')| != 3 ==> r == Success(false)
    ensures r.Failure? ==> r.error == VerifyingToken
    ensures |JavaSplit(token, '.')| == 3 ==>
      var parts := JavaSplit(token, '.');
      var expected := Sign(p, signer.key, parts[0] + "." + parts[1]);
      && (expected.None? ==> r == Failure(VerifyingToken))
      && (expected.Some? && expected.value != parts[2] ==> r == Success(false))
      && (expected == Some(parts[2]) && Decode(parts[1]).None? ==> r == Failure(VerifyingToken))
      && (expected == Some(parts[2]) && Decode(parts[1]).Some? ==>
            var exp := p.readExp(p.newString(Decode(parts[1]).value));
            && (exp.None? ==> r == Failure(VerifyingToken))
            && (exp.Some? ==> r == Success(nowMillis / 1000 < exp.value)))
    ensures r == Success(true) ==>
      var parts := JavaSplit(token, '.');
      && |parts| == 3
      && Sign(p, signer.key, parts[0] + "." + parts[1]) == Some(parts[2])
      && Decode(parts[1]).Some?
      && var exp := p.readExp(p.newString(Decode(parts[1]).value));
         exp.Some? && nowMillis / 1000 < exp.value
  {
    var parts := JavaSplit(token, '.');
    if |parts| != 3 then Success(false)
    else
      match Sign(p, signer.key, parts[0] + "." + parts[1])
      case None => Failure(VerifyingToken)
      case Some(expected) =>
        if parts[2] != expected then Success(false)
        else
          match Decode(parts[1])
          case None => Failure(VerifyingToken)
          case Some(bytes) =>
            match p.readExp(p.newString(bytes))
            case None => Failure(VerifyingToken)
            case Some(exp) => Success(nowMillis / 1000 < exp)
  }
}

=== FILE: login_properties.dfy ===
/**
 Properties of sequences of account-service calls: what a login after
 registration yields, duplicate registration, the reset-code flow, and the
 missing uniqueness check of `updateUser`.
 */
module LoginProperties {
  import opened Wrappers
  import opened Users
  import opened UserStore
  import opened LoginService

  /** After `addUser`, the new record is the one a lookup by its username finds. */
  lemma AddedUserIsFound(c: Credentials, s: Store, u: User, newId: Id, salt: Salt)
    requires newId !in s
    requires AddUser(c, s, u, newId, salt).result.Success?
    ensures FindByUsername(AddUser(c, s, u, newId, salt).store, u.username) == Some(newId)
  {
    var t := AddUser(c, s, u, newId, salt).store;
    assert t[newId].username == u.username;
  }

  /**
   Logging in with the password just registered fails: the stored hash is of
   the password twice plus the pepper, the check verifies the password once
   plus the pepper, and a registered password is never empty.
   */
  lemma RegisterThenLoginFails(c: Credentials, s: Store, u: User, newId: Id, salt: Salt)
    requires Sound(c.argon2)
    requires newId !in s
    requires AddUser(c, s, u, newId, salt).result.Success?
    ensures CheckPassword(c, AddUser(c, s, u, newId, salt).store, u.username, u.password) == Success(false)
  {
    AddedUserIsFound(c, s, u, newId, salt);
    EncryptedVerifiesDoubled(c, u.password, salt, Peppered(c, u.password));
  }

  /** What does log in after registering with `p` is the password `p` typed twice. */
  lemma RegisterThenLoginWithDoubledPassword(c: Credentials, s: Store, u: User, newId: Id, salt: Salt)
    requires Sound(c.argon2)
    requires newId !in s
    requires AddUser(c, s, u, newId, salt).result.Success?
    ensures CheckPassword(c, AddUser(c, s, u, newId, salt).store, u.username,
                          Some(u.password.value + u.password.value)) == Success(true)
  {
    AddedUserIsFound(c, s, u, newId, salt);
    EncryptedVerifiesDoubled(c, u.password, salt, Peppered(c, Some(u.password.value + u.password.value)));
  }

  /** Deleting a just-registered user by its id gives back the store as it was before registration. */
  lemma AddThenDeleteRestores(c: Credentials, s: Store, u: User, newId: Id, salt: Salt)
    requires newId !in s
    requires AddUser(c, s, u, newId, salt).result.Success?
    ensures DeleteUser(AddUser(c, s, u, newId, salt).store, newId) == Reply(s, Success(()))
  {
    var t := AddUser(c, s, u, newId, salt).store;
    assert t - {newId} == s;
  }

  /** Deleting a just-registered user by its username gives back the store as it was before registration. */
  lemma AddThenDeleteByNameRestores(c: Credentials, s: Store, u: User, newId: Id, salt: Salt)
    requires newId !in s
    requires AddUser(c, s, u, newId, salt).result.Success?
    ensures DeleteUserByName(AddUser(c, s, u, newId, salt).store, u.username) == Reply(s, Success(()))
  {
    AddedUserIsFound(c, s, u, newId, salt);
    var t := AddUser(c, s, u, newId, salt).store;
    assert t - {newId} == s;
  }

  /** A second registration under a username already taken is refused. */
  lemma DuplicateRegistrationRejected(c: Credentials, s: Store, u: User, newId: Id, salt: Salt,
                                      v: User, otherId: Id, salt2: Salt)
    requires newId !in s
    requires AddUser(c, s, u, newId, salt).result.Success?
    requires CheckArguments(v).None? && v.username == u.username
    requires otherId !in AddUser(c, s, u, newId, salt).store
    ensures AddUser(c, AddUser(c, s, u, newId, salt).store, v, otherId, salt2).result
            == Failure(IllegalArgument(Some(UsernameExists)))
  {
    var t := AddUser(c, s, u, newId, salt).store;
    assert newId in t && t[newId].username == v.username;
  }

  /**
   The reset flow: after `resetPassword` hands out a non-empty code, redeeming
   it succeeds, the new password (typed twice) logs in, and because the code
   is never cleared it can be redeemed again.
   */
  lemma ResetCodeFlow(c: Credentials, s: Store, name: string, code: string,
                      newPassword: string, salt: Salt, again: string, salt2: Salt)
    requires Sound(c.argon2)
    requires FindByUsername(s, Some(name)).Some?
    requires code != ""
    ensures var r1 := ResetPassword(s, Some(name), code);
      var r2 := ResetPasswordWithCode(c, r1.store, Some(name), Some(code), Some(newPassword), salt);
      && r2.result == Success(true)
      && CheckPassword(c, r2.store, Some(name), Some(newPassword + newPassword)) == Success(true)
      && ResetPasswordWithCode(c, r2.store, Some(name), Some(code), Some(again), salt2).result == Success(true)
  {
    var k := FindByUsername(s, Some(name)).value;
    var r1 := ResetPassword(s, Some(name), code);
    FindByUsernameFrame(s, r1.store, Some(name));
    var r2 := ResetPasswordWithCode(c, r1.store, Some(name), Some(code), Some(newPassword), salt);
    FindByUsernameFrame(r1.store, r2.store, Some(name));
    assert r2.store[k].resetCode == Some(code);
    EncryptedVerifiesDoubled(c, Some(newPassword), salt, Peppered(c, Some(newPassword + newPassword)));
  }

  /** Redeeming a code other than the pending one changes nothing and answers false. */
  lemma WrongCodeRejected(c: Credentials, s: Store, name: string, code: string, guess: Option<string>,
                          newPassword: Option<string>, salt: Salt)
    requires FindByUsername(s, Some(name)).Some?
    requires code != "" && guess != Some(code)
    ensures var r1 := ResetPassword(s, Some(name), code);
      ResetPasswordWithCode(c, r1.store, Some(name), guess, newPassword, salt) == Reply(r1.store, Success(false))
  {
    var r1 := ResetPassword(s, Some(name), code);
    FindByUsernameFrame(s, r1.store, Some(name));
  }

  /** `updateUser` performs no username check: it can leave two records with one username. */
  lemma UpdateUserCanDuplicateUsername()
    ensures exists s: Store, u: User, newId: Id ::
      && newId !in s && UniqueUsernames(s)
      && UpdateUser(s, u, newId).result.Success?
      && !UniqueUsernames(UpdateUser(s, u, newId).store)
  {
    var a := User(Some(0), Some("a@b.c\n"), Some("1\n"), Some("h"), None);
    var s: Store := map[0 := a];
    var u := a.(id := None);
    assert UpdateUser(s, u, 1).store[0].username == UpdateUser(s, u, 1).store[1].username;
    assert UniqueUsernames(s);
  }
}

=== FILE: login_service.dfy ===
/**
 The account service: registration, password check, the reset-code flow,
 update and deletion, as pure operations over the account store. Argon2 is
 a parameter of the model, the pepper a constant of the configuration; a
 random salt and a random reset code are supplied by the caller.
 */
module LoginService {
  import opened Wrappers
  import opened JavaText
  import opened Base64Url
  import opened Users
  import opened UserStore

  /** Argon2 cost parameters: passes, memory in KiB, lanes. */
  datatype Argon2Params = Argon2Params(iterations: nat, memoryKiB: nat, parallelism: nat)

  /** The parameters every password hash is computed with. */
  const HashParams: Argon2Params := Argon2Params(2, 65536, 1)

  type Salt = seq<byte>

  /**
   The Argon2 library: `hash` embeds parameters and salt in its encoded
   output; `verify(encoded, candidate)` recomputes and compares.
   */
  datatype Argon2 = Argon2(
    hash: (Argon2Params, Salt, string) -> string,
    verify: (string, string) -> bool)

  /** The one property assumed of Argon2: an encoded hash verifies exactly its own input. */
  ghost predicate Sound(a: Argon2) {
    forall prm, salt, x, y :: a.verify(a.hash(prm, salt, x), y) <==> x == y
  }

  /** Process-wide configuration: the hashing library and the pepper. */
  datatype Credentials = Credentials(argon2: Argon2, pepper: string)

  /** The exceptions the service lets escape. */
  datatype Error =
    | IllegalArgument(message: Option<string>)
    | NullPointer
      /** The `IllegalArgumentException`, with a message of its own, that the persistence library throws on `remove(null)`. */
    | RemoveOfNull

  /** The store after an operation together with its return value or exception. */
  datatype Reply<T> = Reply(store: Store, result: Result<T, Error>)

  const PasswordEmpty := "Password must not be empty"
  const UsernameEmpty := "Username must not be empty"
  const TelephoneEmpty := "Telephone Number must not be empty"
  const UsernameExists := "Username already exists!"
  const UserNotFound := "User not found!"
  const NoResetCode := "No reset code found!"

  function Fail<T>(s: Store, message: string): Reply<T> {
    Reply(s, Failure(IllegalArgument(Some(message))))
  }

  /** Neither `null` nor empty. */
  predicate Filled(f: Option<string>) {
    f.Some? && f.value != ""
  }

  /** `getUserById`: the record filed under `id`, or `null`. */
  function GetUserById(s: Store, id: Id): (r: Option<User>)
    ensures r.Some? <==> id in s
    ensures r.Some? ==> r.value == s[id]
  {
    if id in s then Some(s[id]) else None
  }

  /**
   `checkArguments`: the exception for the first of password, username and
   telephone number that is `null` or empty, in that order.
   */
  function CheckArguments(u: User): (r: Option<Error>)
    ensures r.None? <==> Filled(u.password) && Filled(u.username) && Filled(u.telephoneNumber)
    ensures !Filled(u.password) ==> r == Some(IllegalArgument(Some(PasswordEmpty)))
    ensures Filled(u.password) && !Filled(u.username) ==> r == Some(IllegalArgument(Some(UsernameEmpty)))
    ensures Filled(u.password) && Filled(u.username) && !Filled(u.telephoneNumber)
            ==> r == Some(IllegalArgument(Some(TelephoneEmpty)))
  {
    if !Filled(u.password) then Some(IllegalArgument(Some(PasswordEmpty)))
    else if !Filled(u.username) then Some(IllegalArgument(Some(UsernameEmpty)))
    else if !Filled(u.telephoneNumber) then Some(IllegalArgument(Some(TelephoneEmpty)))
    else None
  }

  /** A record that passes bean validation also passes `checkArguments`. */
  lemma BeanValidPassesChecks(u: User)
    requires NotNullFields(u) && PatternsHold(u)
    requires u.password.value != ""
    ensures CheckArguments(u).None?
  {
    PatternsEndInLineFeed(u);
  }

  /**
   `encryptPassword`: `password += password + pepper` makes the hashed text
   the password twice followed by the pepper (a `null` password reads as
   the text "null").
   */
  function EncryptPassword(c: Credentials, password: Option<string>, salt: Salt): string {
    var p := JavaStr(password);
    c.argon2.hash(HashParams, salt, p + (p + c.pepper))
  }

  /** The text `checkPassword` verifies: `password += pepper`. */
  function Peppered(c: Credentials, password: Option<string>): string {
    JavaStr(password) + c.pepper
  }

  /** An encrypted password verifies exactly the doubled password followed by the pepper. */
  lemma EncryptedVerifiesDoubled(c: Credentials, p: Option<string>, salt: Salt, candidate: string)
    requires Sound(c.argon2)
    ensures c.argon2.verify(EncryptPassword(c, p, salt), candidate)
            <==> candidate == JavaStr(p) + JavaStr(p) + c.pepper
  {
    var q := JavaStr(p);
    assert q + (q + c.pepper) == q + q + c.pepper;
  }

  /** `addUser`: validate, reject a taken username, hash the password and persist under a new id. */
  function AddUser(c: Credentials, s: Store, u: User, newId: Id, salt: Salt): (r: Reply<()>)
    requires newId !in s
    ensures r.result.Failure? ==> r.store == s
    ensures CheckArguments(u).Some? ==> r.result == Failure(CheckArguments(u).value)
    ensures CheckArguments(u).None? && (exists k :: k in s && s[k].username == u.username)
            ==> r.result == Failure(IllegalArgument(Some(UsernameExists)))
    ensures r.result.Success? <==> CheckArguments(u).None? && forall k :: k in s ==> s[k].username != u.username
    ensures r.result.Success? ==>
      && r.store.Keys == s.Keys + {newId}
      && (forall k :: k in s ==> r.store[k] == s[k])
      && r.store[newId] == u.(id := Some(newId), password := Some(EncryptPassword(c, u.password, salt)))
    ensures Wf(s) ==> Wf(r.store)
    ensures UniqueUsernames(s) ==> UniqueUsernames(r.store)
  {
    match CheckArguments(u)
    case Some(e) => Reply(s, Failure(e))
    case None =>
      if FindByUsername(s, u.username).Some? then Fail(s, UsernameExists)
      else
        var stored := u.(id := Some(newId), password := Some(EncryptPassword(c, u.password, salt)));
        Reply(s[newId := stored], Success(()))
  }

  /**
   `checkPassword`: an unknown username throws a message-less
   `IllegalArgumentException`; otherwise the stored hash is verified against
   the password followed by the pepper. The store is never changed.
   */
  function CheckPassword(c: Credentials, s: Store, username: Option<string>, password: Option<string>)
    : (r: Result<bool, Error>)
    ensures r == Failure(IllegalArgument(None)) <==> username.None? || forall k :: k in s ==> s[k].username != username
    ensures Wf(s) ==> r != Failure(NullPointer)
    ensures FindByUsername(s, username).Some? ==>
      var found := s[FindByUsername(s, username).value];
      && (found.password.None? ==> r == Failure(NullPointer))
      && (found.password.Some? ==> r == Success(c.argon2.verify(found.password.value, Peppered(c, password))))
    ensures r.Success? ==> exists k :: k in s && s[k].username == username && s[k].password.Some?
                                      && r.value == c.argon2.verify(s[k].password.value, Peppered(c, password))
  {
    match FindByUsername(s, username)
    case None => Failure(IllegalArgument(None))
    case Some(k) =>
      match s[k].password
      case None => Failure(NullPointer)
      case Some(h) => Success(c.argon2.verify(h, Peppered(c, password)))
  }

  /** `resetPassword`: store `code` as the user's pending reset code and return it. */
  function ResetPassword(s: Store, username: Option<string>, code: string): (r: Reply<string>)
    ensures r.result.Failure? <==> FindByUsername(s, username).None?
    ensures r.result.Failure? ==> r.result == Failure(IllegalArgument(Some(UserNotFound))) && r.store == s
    ensures r.result.Success? ==>
      && r.result.value == code
      && r.store.Keys == s.Keys
      && var k := FindByUsername(s, username).value;
         && r.store[k] == s[k].(resetCode := Some(code))
         && forall j :: j in s && j != k ==> r.store[j] == s[j]
    ensures Wf(s) ==> Wf(r.store)
    ensures UniqueUsernames(s) ==> UniqueUsernames(r.store)
  {
    match FindByUsername(s, username)
    case None => Fail(s, UserNotFound)
    case Some(k) => Reply(s[k := s[k].(resetCode := Some(code))], Success(code))
  }

  /**
   `resetPasswordWithCode`: with a pending code equal to `code`, replace the
   password by the encrypted new one and return true; the pending code is
   left in place.
   */
  function ResetPasswordWithCode(c: Credentials, s: Store, username: Option<string>, code: Option<string>,
                                 newPassword: Option<string>, salt: Salt): (r: Reply<bool>)
    ensures r.result != Success(true) ==> r.store == s
    ensures FindByUsername(s, username).None? ==> r.result == Failure(IllegalArgument(Some(UserNotFound)))
    ensures FindByUsername(s, username).Some? ==>
      var k := FindByUsername(s, username).value;
      && (!Filled(s[k].resetCode) ==> r.result == Failure(IllegalArgument(Some(NoResetCode))))
      && (Filled(s[k].resetCode) && s[k].resetCode != code ==> r.result == Success(false))
      && (Filled(s[k].resetCode) && s[k].resetCode == code ==>
            && r.result == Success(true)
            && r.store.Keys == s.Keys
            && r.store[k] == s[k].(password := Some(EncryptPassword(c, newPassword, salt)))
            && forall j :: j in s && j != k ==> r.store[j] == s[j])
    ensures Wf(s) ==> Wf(r.store)
    ensures UniqueUsernames(s) ==> UniqueUsernames(r.store)
  {
    match FindByUsername(s, username)
    case None => Fail(s, UserNotFound)
    case Some(k) =>
      var user := s[k];
      if !Filled(user.resetCode) then Fail(s, NoResetCode)
      else if user.resetCode != code then Reply(s, Success(false))
      else Reply(s[k := user.(password := Some(EncryptPassword(c, newPassword, salt)))], Success(true))
  }

  /**
   `updateUser`: validate, then merge the record as given (no hashing, no
   username check). A record whose id is on file replaces that record; one
   without a known id is inserted under a newly generated id.
   */
  function UpdateUser(s: Store, u: User, newId: Id): (r: Reply<()>)
    requires newId !in s
    ensures CheckArguments(u).Some? ==> r == Reply(s, Failure(CheckArguments(u).value))
    ensures CheckArguments(u).None? ==> r.result.Success?
    ensures r.result.Success? && u.id.Some? && u.id.value in s ==>
      && r.store.Keys == s.Keys
      && r.store[u.id.value] == u
      && forall j :: j in s && j != u.id.value ==> r.store[j] == s[j]
    ensures r.result.Success? && !(u.id.Some? && u.id.value in s) ==>
      && r.store.Keys == s.Keys + {newId}
      && r.store[newId] == u.(id := Some(newId))
      && forall j :: j in s ==> r.store[j] == s[j]
    ensures Wf(s) ==> Wf(r.store)
  {
    match CheckArguments(u)
    case Some(e) => Reply(s, Failure(e))
    case None =>
      if u.id.Some? && u.id.value in s then Reply(s[u.id.value := u], Success(()))
      else Reply(s[newId := u.(id := Some(newId))], Success(()))
  }

  /** `deleteUser`: remove the record filed under `id`, or throw when there is none. */
  function DeleteUser(s: Store, id: Id): (r: Reply<()>)
    ensures r.result.Failure? <==> id !in s
    ensures r.result.Failure? ==> r == Fail(s, UserNotFound)
    ensures r.result.Success? ==> r.store.Keys == s.Keys - {id} && forall k :: k in r.store ==> r.store[k] == s[k]
    ensures Wf(s) ==> Wf(r.store)
    ensures UniqueUsernames(s) ==> UniqueUsernames(r.store)
  {
    if id !in s then Fail(s, UserNotFound) else Reply(s - {id}, Success(()))
  }

  /**
   `deleteUserByName`: a `null` or empty name is rejected; otherwise the
   record found by name is removed. With no such record the persistence
   library's `remove(null)` throws an `IllegalArgumentException` of its own,
   distinct from the service's.
   */
  function DeleteUserByName(s: Store, username: Option<string>): (r: Reply<()>)
    ensures !Filled(username) ==> r == Fail(s, UsernameEmpty)
    ensures Filled(username) && FindByUsername(s, username).None? ==> r == Reply(s, Failure(RemoveOfNull))
    ensures r.result.Success? <==> Filled(username) && exists k :: k in s && s[k].username == username
    ensures r.result.Success? ==>
      var k := FindByUsername(s, username).value;
      r.store.Keys == s.Keys - {k} && forall j :: j in r.store ==> r.store[j] == s[j]
    ensures Wf(s) ==> Wf(r.store)
    ensures UniqueUsernames(s) ==> UniqueUsernames(r.store)
  {
    if !Filled(username) then Fail(s, UsernameEmpty)
    else
      match FindByUsername(s, username)
      case None => Reply(s, Failure(RemoveOfNull))
      case Some(k) => Reply(s - {k}, Success(()))
  }
}

=== FILE: user.dfy ===
/**
 The persisted account record and the bean-validation constraints declared
 on its fields.
 */
module Users {
  import opened Wrappers
  import opened JavaText

  /** Account identifiers; the store generates them on insertion. */
  type Id = nat

  /**
   An account. Reference-typed fields are optional because Java allows them
   to be `null`. `password` holds the plaintext on the way in and the encoded
   hash once stored; `resetCode` is the pending password-reset code.
   */
  datatype User = User(
    id: Option<Id>,
    username: Option<string>,
    telephoneNumber: Option<string>,
    password: Option<string>,
    resetCode: Option<string>)

  /** The three `@NotNull` constraints. */
  predicate NotNullFields(u: User) {
    u.username.Some? && u.telephoneNumber.Some? && u.password.Some?
  }

  /** Java's `\s`: space, tab, line feed, vertical tab, form feed, carriage return. */
  predicate IsJavaSpace(c: char) {
    c == ' ' || c == '\t' || c == '\n' || c as int == 0x0B || c as int == 0x0C || c == '\r'
  }

  /** The character class `[^\s@]`. */
  predicate IsNameChar(c: char) {
    !IsJavaSpace(c) && c != '@'
  }

  predicate AllNameChars(s: string) {
    forall i :: 0 <= i < |s| ==> IsNameChar(s[i])
  }

  predicate IsAsciiDigit(c: char) {
    '0' <= c <= '9'
  }

  predicate AllAsciiDigits(s: string) {
    forall i :: 0 <= i < |s| ==> IsAsciiDigit(s[i])
  }

  /**
   One way of matching the username pattern `^[^\s@]+@[^\s@]+\.[^\s@]+$\n`
   as a whole: the `@` sits at `at`, the escaped `.` at `dot`, and the final
   character is the literal line feed that follows `$` (which, without
   MULTILINE, matches just before a final line terminator).
   */
  predicate UsernameSplit(s: string, at: int, dot: int) {
    && 0 < at && at + 1 < dot && dot + 2 < |s|
    && s[at] == '@' && s[dot] == '.' && s[|s| - 1] == '\n'
    && AllNameChars(s[..at]) && AllNameChars(s[at + 1..dot]) && AllNameChars(s[dot + 1..|s| - 1])
  }

  /** Full-match semantics of the username pattern, read off the regex. */
  ghost predicate MatchesUsernamePattern(s: string) {
    exists at, dot :: UsernameSplit(s, at, dot)
  }

  /** The part after the `@` has a `.` that is neither its first nor its last character. */
  predicate HasInnerDot(d: string) {
    |d| >= 3 && '.' in d[1..|d| - 1]
  }

  /**
   A direct check of the username pattern: the value is a line ending in a
   line feed whose body has no whitespace, exactly one `@`, not in front,
   and an inner `.` after the `@`.
   */
  predicate ValidUsername(s: string) {
    && |s| > 0 && s[|s| - 1] == '\n'
    && var body := s[..|s| - 1];
       && (forall i :: 0 <= i < |body| ==> !IsJavaSpace(body[i]))
       && '@' in body && Count(body, '@') == 1
       && var at := IndexOf(body, '@');
          0 < at && HasInnerDot(body[at + 1..])
  }

  /** A username the direct check accepts: every character of the line but the first `@` is a name character. */
  lemma ValidNameChars(s: string)
    requires ValidUsername(s)
    ensures var at := IndexOf(s[..|s| - 1], '@');
      forall i :: 0 <= i < |s| - 1 && i != at ==> IsNameChar(s[i])
  {
    var body := s[..|s| - 1];
    var at := IndexOf(body, '@');
    CountOnce(body, '@', at);
    assert forall i :: 0 <= i < |body| ==> body[i] == s[i];
  }

  /** A slice whose every character is a name character. */
  lemma NameCharsSlice(s: string, lo: int, hi: int)
    requires 0 <= lo <= hi <= |s|
    requires forall i :: lo <= i < hi ==> IsNameChar(s[i])
    ensures AllNameChars(s[lo..hi])
  {
    assert forall i :: 0 <= i < hi - lo ==> s[lo..hi][i] == s[lo + i];
  }

  lemma ValidUsernameSplits(s: string)
    requires ValidUsername(s)
    ensures MatchesUsernamePattern(s)
  {
    var body := s[..|s| - 1];
    var at := IndexOf(body, '@');
    var d := body[at + 1..];
    var k :| 0 <= k < |d[1..|d| - 1]| && d[1..|d| - 1][k] == '.';
    var dot := at + 2 + k;
    assert s[dot] == '.' by {
      assert d[1..|d| - 1][k] == d[k + 1] == body[dot];
    }
    assert s[at] == '@' by {
      assert body[at] == '@';
    }
    ValidNameChars(s);
    NameCharsSlice(s, 0, at);
    NameCharsSlice(s, at + 1, dot);
    NameCharsSlice(s, dot + 1, |s| - 1);
    assert UsernameSplit(s, at, dot);
  }

  /** Under a split, every character of the line other than the `@` is a name character. */
  lemma SplitNameChars(s: string, at: int, dot: int)
    requires UsernameSplit(s, at, dot)
    ensures forall i :: 0 <= i < |s| - 1 && i != at ==> IsNameChar(s[i])
  {
    assert forall i :: 0 <= i < at ==> s[i] == s[..at][i];
    assert forall i :: at < i < dot ==> s[i] == s[at + 1..dot][i - at - 1];
    assert forall i :: dot < i < |s| - 1 ==> s[i] == s[dot + 1..|s| - 1][i - dot - 1];
  }

  /** The first occurrence of a character that occurs only at `a` is `a`. */
  lemma IndexOfOnly(s: string, c: char, a: int)
    requires 0 <= a < |s| && s[a] == c
    requires forall i :: 0 <= i < |s| && i != a ==> s[i] != c
    ensures IndexOf(s, c) == a
  {
    assert c !in s[..a];
    assert s[..a + 1][a] == c;
  }

  lemma SplitIsValidUsername(s: string, at: int, dot: int)
    requires UsernameSplit(s, at, dot)
    ensures ValidUsername(s)
  {
    var body := s[..|s| - 1];
    SplitNameChars(s, at, dot);
    assert forall i :: 0 <= i < |body| && i != at ==> IsNameChar(body[i]);
    CountOnce(body, '@', at);
    IndexOfOnly(body, '@', at);
    var d := body[at + 1..];
    assert d[1..|d| - 1][dot - at - 2] == '.';
  }

  /** The hand-written username check accepts exactly what the pattern matches. */
  lemma UsernamePatternEquivalence(s: string)
    ensures ValidUsername(s) <==> MatchesUsernamePattern(s)
  {
    if ValidUsername(s) {
      ValidUsernameSplits(s);
    }
    if MatchesUsernamePattern(s) {
      var at, dot :| UsernameSplit(s, at, dot);
      SplitIsValidUsername(s, at, dot);
    }
  }

  /** A username the pattern accepts: one `@`, not first, no whitespace before the final line feed, an inner dot after `@`. */
  lemma UsernamePatternShape(s: string)
    requires MatchesUsernamePattern(s)
    ensures |s| > 0 && s[|s| - 1] == '\n'
    ensures var body := s[..|s| - 1];
      && Count(body, '@') == 1
      && (forall i :: 0 <= i < |body| ==> !IsJavaSpace(body[i]))
      && 0 < IndexOf(body, '@') && HasInnerDot(body[IndexOf(body, '@') + 1..])
  {
    UsernamePatternEquivalence(s);
  }

  /**
   One way of matching the telephone pattern `^(\+|)\d+$\n` as a whole:
   `sign` (0 or 1) characters of `+`, then ASCII digits, then the final line
   feed.
   */
  predicate TelephoneSplit(s: string, sign: int) {
    && 0 <= sign <= 1 && sign + 2 <= |s|
    && (sign == 1 ==> s[0] == '+')
    && AllAsciiDigits(s[sign..|s| - 1]) && s[|s| - 1] == '\n'
  }

  /** Full-match semantics of the telephone pattern, read off the regex. */
  ghost predicate MatchesTelephonePattern(s: string) {
    exists sign :: TelephoneSplit(s, sign)
  }

  /** A direct check of the telephone pattern: an optional `+`, one or more digits, a final line feed. */
  predicate ValidTelephone(s: string) {
    && |s| >= 2 && s[|s| - 1] == '\n'
    && var body := s[..|s| - 1];
       var digits := if body[0] == '+' then body[1..] else body;
       |digits| > 0 && AllAsciiDigits(digits)
  }

  /** The hand-written telephone check accepts exactly what the pattern matches. */
  lemma TelephonePatternEquivalence(s: string)
    ensures ValidTelephone(s) <==> MatchesTelephonePattern(s)
  {
    if ValidTelephone(s) {
      var sign := if s[0] == '+' then 1 else 0;
      assert s[..|s| - 1][sign..] == s[sign..|s| - 1];
      assert TelephoneSplit(s, sign);
    }
    if MatchesTelephonePattern(s) {
      var sign :| TelephoneSplit(s, sign);
      var body := s[..|s| - 1];
      if sign == 0 {
        assert !IsAsciiDigit('+');
        assert s[0] == s[sign..|s| - 1][0];
        assert body == s[sign..|s| - 1];
      } else {
        assert body[1..] == s[sign..|s| - 1];
      }
    }
  }

  /** Both field patterns. */
  ghost predicate PatternsHold(u: User) {
    && (u.username.Some? ==> MatchesUsernamePattern(u.username.value))
    && (u.telephoneNumber.Some? ==> MatchesTelephonePattern(u.telephoneNumber.value))
  }

  /** Values the patterns accept are never empty and always end in a line feed. */
  lemma PatternsEndInLineFeed(u: User)
    requires NotNullFields(u) && PatternsHold(u)
    ensures u.username.value != [] && u.username.value[|u.username.value| - 1] == '\n'
    ensures u.telephoneNumber.value != [] && u.telephoneNumber.value[|u.telephoneNumber.value| - 1] == '\n'
  {
    UsernamePatternEquivalence(u.username.value);
    TelephonePatternEquivalence(u.telephoneNumber.value);
  }
}

=== FILE: user_store.dfy ===
/**
 The account repository, as an immutable map from identifier to record.
 Lookups by username compare for exact equality; when several records share
 a username, the repository's "first result" is taken to be the one with
 the least identifier.
 */
module UserStore {
  import opened Wrappers
  import opened Users

  type Store = map<Id, User>

  /** A set of identifiers holding `x` has a least element: descend while a smaller one exists. */
  lemma {:induction false} LeastAtMost(ids: set<Id>, x: Id)
    requires x in ids
    ensures exists m :: m in ids && forall k :: k in ids ==> m <= k
    decreases x
  {
    if exists y :: y in ids && y < x {
      var y :| y in ids && y < x;
      LeastAtMost(ids, y);
    } else {
      assert forall k :: k in ids ==> x <= k;
    }
  }

  lemma LeastExists(ids: set<Id>)
    requires ids != {}
    ensures exists m :: m in ids && forall k :: k in ids ==> m <= k
  {
    var x :| x in ids;
    LeastAtMost(ids, x);
  }

  /** The least identifier of a non-empty set. */
  function Least(ids: set<Id>): (m: Id)
    requires ids != {}
    ensures m in ids && forall k :: k in ids ==> m <= k
  {
    LeastExists(ids);
    var m :| m in ids && forall k :: k in ids ==> m <= k; m
  }

  /** `findByUsername`: `null` for a `null` name or when no record has the name. */
  function FindByUsername(s: Store, name: Option<string>): (r: Option<Id>)
    ensures r.None? <==> name.None? || forall k :: k in s ==> s[k].username != name
    ensures r.Some? ==> r.value in s && s[r.value].username == name
    ensures r.Some? ==> forall k :: k in s && s[k].username == name ==> r.value <= k
  {
    if name.None? then None
    else
      var hits := set k | k in s && s[k].username == name;
      assert forall k :: k in s && s[k].username == name ==> k in hits;
      if hits == {} then None
      else
        var m := Least(hits);
        Some(m)
  }

  /** Records are filed under their own identifier and have their `@NotNull` fields set. */
  predicate Wf(s: Store) {
    forall k :: k in s ==> s[k].id == Some(k) && NotNullFields(s[k])
  }

  /** No two records share a username. */
  predicate UniqueUsernames(s: Store) {
    forall j, k :: j in s && k in s && j != k ==> s[j].username != s[k].username
  }

  /** With unique usernames, the record found is the only one with that name. */
  lemma FindByUsernameUnique(s: Store, name: Option<string>, k: Id)
    requires UniqueUsernames(s) && name.Some?
    requires k in s && s[k].username == name
    ensures FindByUsername(s, name) == Some(k)
  {
  }

  /** Lookups by name agree on stores that hold the same identifiers with the same usernames. */
  lemma FindByUsernameFrame(s: Store, t: Store, name: Option<string>)
    requires s.Keys == t.Keys
    requires forall k :: k in s ==> s[k].username == t[k].username
    ensures FindByUsername(s, name) == FindByUsername(t, name)
  {
    if name.Some? {
      var hs := set k | k in s && s[k].username == name;
      var ht := set k | k in t && t[k].username == name;
      assert hs == ht;
    }
  }
}

=== FILE: wrappers.dfy ===
/** Failure-compatible result types shared by every module of the model. */
module Wrappers {

  /** A value that may be absent; `None` stands for a Java `null`. */
  datatype Option<+T> = None | Some(value: T) {
    predicate IsFailure() { None? }

    function PropagateFailure<U>(): Option<U>
      requires None?
    {
      None
    }

    function Extract(): T
      requires Some?
    {
      value
    }
  }

  /** The outcome of an operation that either returns a value or throws. */
  datatype Result<+R, +E> = Success(value: R) | Failure(error: E) {
    predicate IsFailure() { Failure? }

    function PropagateFailure<U>(): Result<U, E>
      requires Failure?
    {
      Failure(error)
    }

    function Extract(): R
      requires Success?
    {
      value
    }
  }
}
